=== FILE: README.md ===
# Tencer presence and matchmaking core in Dafny

Tencer is a private server for a VR social game. It has an HTTP API and a
WebSocket real-time server. This project models three parts of it as pure
functions over immutable data and proves properties about them:

- **Presence registry.** This is the WebSocket side:
  - the connection table `PlayerMap`, each entry holding an account's subscriber list and game version;
  - the one-frame handshake and its `{"SessionId":567}` acknowledgement;
  - register-if-absent;
  - the command dispatcher, with `playerSubscriptions/v1/update` and `heartbeat`;
  - the subscription walk;
  - the purge on disconnect.
- **Presence fan-out.** `send_msg_to_subscribed` wraps a payload in `{"Id":..,"Msg":..}` and sends it to the target's subscribers in list order. It stops at the first failed send.
- **Session directory and matchmaking.** This covers:
  - `reserve_photon_instance`, which joins the first joinable session or creates one under the lowest free id;
  - `create_photon_instance`;
  - the `join_random` and `create` handlers: region choice by lowest ping, the `GameSession` view, ad-hoc hosting, and the result codes;
  - the `versioncheck/v3` endpoint;
  - the shape check of the `Authorization` header.

Modules, one per file:

- `Wrappers`: `Option` and `Result`.
- `Seqs`: counting values in sequences and removing them from id lists.
- `Text`: Rust `str::split` on one character.
- `Decimal`: `i32` display and `i32::from_str`.
- `Json`: an abstract JSON value and the serde readings the core uses.
- `Photon`: the session record.
- `Directory`: the allocator.
- `WsTypes`, `Subscriptions`, `Dispatch`, `Connection`: the registry.
- `Broadcast`: the fan-out.
- `GameSessions`: the two handlers.
- `VersionCheck` and `Auth`: the two request helpers.
- `Scenarios`: worked examples that combine the modules.

Things the model cannot compute are parameters:

- the iteration order of a Rust `HashMap`: a sequence `order` listing every key once;
- the random activity pick: an index `idx`;
- the generated UUID room id: a string `photonId`;
- whether a subscriber's channel accepts a frame: the set `ready`;
- JSON serialization of the presence update: a function `encode`;
- JWT verification: a function `verify`.

A panic is an outcome, not a precondition:

- `None` when the directory has no free id;
- `Panicked` when the fan-out meets an account that is not connected;
- a `Reply` without a response when a handler panics.

Three facts about the server code shape the model:

- The reserve scan visits sessions in `HashMap` iteration order (src/main.rs:153). So "first joinable" is relative to the parameter `order`.
- An update from account A lists the accounts A follows. A is appended to the subscriber lists of exactly those accounts (src/ws/api/sub.rs:39-40). So `PlayerIds:[42]` from 7 puts 7 in 42's list (`Scenarios.FollowScenario`), and `PlayerIds:[7]` from 7 puts 7 in its own list (`Scenarios.SelfFollowScenario`).
- A broadcast that meets an account missing from the table panics on `unwrap` (src/main.rs:143, 146). It does not return an error.

## Model

| member | source | states |
|---|---|---|
| Directory.FirstJoinable | src/main.rs:153-164 | the returned position is the first in the scan order whose session is public, has room for one more player, and has the same activity and version; none means no session in the scan is joinable |
| Directory.CapacityForActivity | src/main.rs:218-221 | every activity, whatever its id, gets room for 40 players |
| Directory.NewInstance | src/main.rs:166-202 | a new session is empty, not in progress, holds 40, and carries the requested activity, game version, privacy, preferred region and generated room id; it can be joined for its own activity and version exactly when it is public |
| Directory.FreeIdFrom | src/main.rs:180-189 | the returned id is unused and every id before it (from the start point) is in use; none means every id below i32::MAX is taken |
| Directory.Insert | src/main.rs:204-214 | stores the session under the lowest free id, adds exactly that key and leaves every other session unchanged; fails exactly when all ids below i32::MAX are taken |
| Directory.Reserve | src/main.rs:152-190 | a joinable stored session is always handed out unchanged, with the directory untouched; when none is joinable, a new session is inserted under the lowest free id; the only failure is id exhaustion |
| Directory.Create | src/main.rs:192-215 | fails exactly on id exhaustion; otherwise the id is new, the directory grows by one, the stored session is the returned one and keeps the caller's privacy flag |
| Directory.ReserveTakesFirstInOrder | src/main.rs:153-161 | whatever session is first joinable in the iteration order is the one returned, with its stored record |
| Directory.ReserveCreatesDefaultSession | src/main.rs:166-186 | with nothing joinable, the new session has the preferred region, the room id, the activity and version, is public, not started, empty, has capacity 40, and sits under the lowest free id |
| Directory.CreateDefaultSession | src/main.rs:192-211 | the created session has the given region, room id, activity, version and privacy, is not started, is empty and has capacity 40, under the lowest free id |
| Directory.ReserveTwiceJoins | src/main.rs:152-190 | after one reserve, a second reserve for the same activity and version joins an existing session and changes nothing, because occupancy is never updated |
| Directory.ReserveKeepsPristine | src/main.rs:166-186 | reserve keeps every stored session at zero players and capacity 40 |
| Directory.CreateKeepsPristine | src/main.rs:193-211 | create keeps every stored session at zero players and capacity 40 |
| Directory.PristineJoinable | src/main.rs:154-157 | in such a directory a session is joinable exactly when it is public with the same activity and version; capacity never excludes it |
| Directory.ExhaustedIsHuge | src/main.rs:180-189 | the allocator's panic needs at least i32::MAX stored sessions |
| Directory.FreeIdReusesGap | src/main.rs:205-211 | with ids 0 and 2 in use, the next id is 1 |
| Broadcast.Envelope | src/main.rs:141 | the frame is `{"Id":`, the decimal message id, `,"Msg":`, the payload and a closing brace, in that order, and is 14 characters longer than id and payload together |
| Broadcast.SendAll | src/main.rs:145-149 | the accounts reached are a prefix of the subscriber list, all connected and accepting; delivered exactly when all were reached; a failure names the first subscriber whose channel refused; a panic means the next subscriber is not connected |
| Broadcast.Broadcast | src/main.rs:140-150 | the frame is the `{"Id":..,"Msg":..}` envelope; a target that is not connected panics before any send; otherwise sends follow the target's subscriber list in order |
| Broadcast.BroadcastDeliveredIff | src/main.rs:142-149 | delivery succeeds exactly when the target and every subscriber are connected and every subscriber accepts the frame |
| Broadcast.BroadcastStopsAtFirstFailure | src/main.rs:145-147 | on a failed send, everyone before the failing subscriber accepted, and nobody after it was tried |
| Broadcast.WellFormedBroadcastNeverPanics | src/main.rs:143-146 | in a well-formed registry, a broadcast for a connected account never panics |
| Broadcast.EnvelopeInjective | src/main.rs:141 | two envelopes are equal only when message id and payload are equal |
| Connection.DecodeHandshake | src/ws/mod.rs:152-170 | a handshake is accepted exactly when `PlayerId` is a string that `i32::from_str` accepts and `AppVersion` is a string; the id is that parse and the version is that string |
| Connection.DecodeEncodeHandshake | src/ws/mod.rs:152-170 | a handshake whose id is written as a decimal string reads back as the same id and version |
| Connection.AcceptHandshake | src/ws/mod.rs:57-84 | the acknowledgement is sent exactly for a first frame that is text holding a valid handshake; the connection then goes live with that handshake if and only if the acknowledgement was delivered |
| Connection.Register | src/ws/mod.rs:87-94 | a second connection for a registered account changes nothing; a new account gets an empty entry with its version; all other entries are unchanged |
| Connection.Disconnect | src/ws/mod.rs:109-114 | the account's entry is removed and the account appears in no remaining subscriber list |
| Connection.Open | src/ws/mod.rs:68-94 | the table changes only after a delivered acknowledgement of a valid handshake for an account not yet connected, and then gains exactly a fresh entry for that account and app version |
| Connection.OpenRegistersHandshake | src/ws/mod.rs:68-94 | a text frame with a valid handshake adds a fresh entry for its account exactly when the acknowledgement was delivered and the account was not connected; otherwise nothing changes |
| Connection.HandleIncoming | src/ws/mod.rs:118-131 | a text frame that parses as a command leaves the table exactly as the dispatcher does for the caller; every other frame leaves it unchanged, and a change happens only through a successful subscription update |
| Connection.HandshakeExample | src/ws/mod.rs:68-94 | the handshake `{"PlayerId":"42","AppVersion":"1.0"}` gets the fixed acknowledgement and registers account 42 with no subscribers, but only if the acknowledgement is delivered |
| Connection.DisconnectPurges | src/ws/mod.rs:111-113 | after a disconnect, every remaining list is the old list with the account filtered out: other subscribers keep their counts and order, and versions are kept |
| Connection.RegisterKeepsWellFormed | src/ws/mod.rs:88-94 | registration keeps the invariant that every subscriber list names connected accounts without repeats |
| Connection.DisconnectKeepsWellFormed | src/ws/mod.rs:109-114 | disconnect keeps that invariant |
| Connection.RegisterThenDisconnect | src/ws/mod.rs:87-114 | connecting a new account and disconnecting it restores the table |
| Connection.StepKeepsWellFormed | src/ws/mod.rs:87-131 | connect, command and close events each keep the invariant |
| Connection.RunKeepsWellFormed | src/ws/mod.rs:87-131 | every table reachable by a sequence of events keeps the invariant |
| WsTypes.NewPlayerData | src/ws/mod.rs:142-150 | a new entry keeps the app version and has an empty subscriber list, valid in any table |
| WsTypes.DecodeApiRequest | src/ws/mod.rs:173-178 | a frame reads as a command exactly when it has a string member `api`; the parameter is the member `param`, with a missing or `null` one read as absent |
| WsTypes.DecodeEncodeApiRequest | src/ws/mod.rs:173-178 | a command object reads back as its path and parameter; a `null` parameter reads as none |
| Dispatch.Execute | src/ws/api/mod.rs:5-12 | the update path delegates to the subscription update; any other path leaves the table alone, succeeds exactly for `heartbeat` and otherwise fails with an unknown-path error; `Scenarios.UpdateFrameApplies` connects a whole update frame to `Subscriptions.Resubscribe` |
| Dispatch.ExecuteChangesOnlyOnUpdate | src/ws/api/mod.rs:5-12 | every failed command leaves the table unchanged, and only a successful update from a connected caller can change it |
| Dispatch.ExecuteNearMisses | src/ws/api/mod.rs:6-11 | paths differing in case, a trailing character or the version are unknown |
| Subscriptions.DecodeUpdateParams | src/ws/api/sub.rs:16-26 | a parameter reads only when its member `PlayerIds` is present and is exactly the JSON array of the returned 32-bit ids |
| Subscriptions.Resubscribe | src/ws/api/sub.rs:35-42 | the walk keeps the table's key set |
| Subscriptions.Update | src/ws/api/sub.rs:21-45 | a missing parameter gives a missing-params error; an undecodable one gives an invalid-params error; an unregistered caller gives a caller-not-found error; every error leaves the table unchanged; success applies the walk with the decoded ids |
| Subscriptions.ResubscribeOverwrites | src/ws/api/sub.rs:35-42 | afterwards the caller occurs exactly once in the list of each listed connected account and in no other list; all other subscribers and versions are untouched |
| Subscriptions.ResubscribeLatestWins | src/ws/api/sub.rs:35-42 | two updates by the same caller equal the second alone: overwrite, not union |
| Subscriptions.ResubscribeIgnoresUnknownIds | src/ws/api/sub.rs:39 | only which connected accounts are named matters, not order, repeats or unknown ids |
| Subscriptions.UpdateIdempotent | src/ws/api/sub.rs:21-45 | repeating an update gives the same result and table |
| Subscriptions.ResubscribeKeepsWellFormed | src/ws/api/sub.rs:30-42 | the walk keeps the registry invariant |
| Subscriptions.UpdateUnknownCaller | src/ws/api/sub.rs:30-33 | a well-formed update from an unregistered caller fails with caller-not-found and changes nothing |
| Decimal.FromStr | src/ws/mod.rs:163-170 | the digit-by-digit parse with overflow checks accepts exactly the strings of an optional sign followed by digits whose value fits in 32 bits, with that value |
| Decimal.ParseIntToString | src/ws/mod.rs:163-170 | the decimal text of every 32-bit integer parses back to it |
| Decimal.ParseRejectsOverflow | src/ws/mod.rs:155-156 | the text of any integer outside the 32-bit range is rejected |
| Decimal.ParseShape | src/ws/mod.rs:163-170 | an accepted string is one optional sign and then only digits, and only a leading minus gives a negative value |
| Decimal.ParseExamples | src/ws/mod.rs:163-170 | "42", "+7" and "-007" are accepted; "", "-", "+-1" and " 1" are rejected |
| Decimal.IntToStringInjective | src/main.rs:141 | different message ids give different decimal text |
| Json.AsI32s | src/ws/api/sub.rs:17-19 | an accepted array holds only integers in the 32-bit range, read in order, and is exactly the array serde writes for that list |
| Json.ReadI32Array | src/ws/api/sub.rs:17-19 | an array of 32-bit integers reads back as the same list |
| GameSessions.MinPingFrom | src/api/gamesessions.rs:133-134 | the scan yields the entry with the lowest ping, the first one among ties |
| GameSessions.PreferredRegion | src/api/gamesessions.rs:133-136 | the region is that of the first lowest ping, or "us" when there are no pings |
| GameSessions.U32AsI32 | src/api/gamesessions.rs:101 | the cast gives a 32-bit signed value equal to the input modulo 2^32 |
| GameSessions.FromPhotonInstance | src/api/gamesessions.rs:90-104 | the view is full exactly when the player count reaches capacity; it reports the capacity unchanged when that fits in an i32; it copies id, region, room id, activity, privacy and progress; it carries the given creator, an empty name and no event |
| GameSessions.Announce | src/api/gamesessions.rs:141-156 | the presence update goes out as message 12 with the session; success with the session exactly on full delivery, "player not online" without a session exactly on a failed send, no response exactly on a panic; the state is untouched |
| GameSessions.JoinRandomSession | src/api/gamesessions.rs:118-139 | the session is for the chosen activity with no creator; a failure happens only outside ad-hoc mode when ids run out |
| GameSessions.JoinRandom | src/api/gamesessions.rs:107-157 | an empty activity list gives "no such game" with no change and no fan-out; players and mode never change; ad-hoc mode leaves the state alone; a returned session means success, one of the requested activities and no creator, and it is the session the presence update announced |
| GameSessions.CreateSession | src/api/gamesessions.rs:174-198 | the session is public and for the requested activity; it fails exactly when hosting is not ad hoc and ids run out |
| GameSessions.Create | src/api/gamesessions.rs:172-216 | players and mode never change; ad-hoc mode leaves the state alone; a returned session means success, the requested activity, public, the caller as creator outside ad-hoc mode, and it is the session the presence update announced |
| GameSessions.CreateResultCodes | src/api/gamesessions.rs:180-215 | success with a session iff full delivery; "player not online" iff a failed send; no response iff the id space or the fan-out panicked; no fan-out exactly when hosting is not ad hoc and ids run out |
| GameSessions.CreateStoresSession | src/api/gamesessions.rs:194-215 | outside ad-hoc mode the stored directory is exactly the one `create_photon_instance` returns, and both the announced and the answered session are the created entry with the caller as creator |
| GameSessions.JoinRandomResultCodes | src/api/gamesessions.rs:137-156 | for a non-empty request: success with a session iff full delivery; "player not online" iff a failed send; no response iff the id space or the fan-out panicked |
| GameSessions.JoinRandomStoresReserve | src/api/gamesessions.rs:133-156 | outside ad-hoc mode the stored directory is exactly the one reserve-or-create returns for the picked activity, and both the announced and the answered session are the one it handed out; with no free id there is no change, no fan-out and no response |
| GameSessions.JoinRandomAnswers | src/api/gamesessions.rs:107-157 | a connected caller in a well-formed registry always gets a response while ids remain |
| GameSessions.JoinRandomAdHoc | src/api/gamesessions.rs:118-131 | ad-hoc mode reports session 567 in the configured region, room "public <activity>", capacity 40, not full, public, no creator, and leaves the state alone |
| GameSessions.CreateAdHoc | src/api/gamesessions.rs:180-193 | ad-hoc mode reports session 567 in the configured region, room "custom <activity>", capacity 40, no creator, and leaves the state alone |
| GameSessions.JoinRandomReportsStoredSession | src/api/gamesessions.rs:132-138 | outside ad-hoc mode the reported session is the stored entry under the reported id (region, room, activity, version, privacy, progress), and never full with capacity 40 in a directory of empty sessions |
| GameSessions.CreateAddsSession | src/api/gamesessions.rs:194-215 | outside ad-hoc mode, while ids remain, create adds exactly one new public session and keeps all other sessions; the session it announces, and answers with on success, is in the preferred region with the caller as creator |
| VersionCheck.AnyFrom | src/api/mod.rs:29 | the scan finds an equal supported build exactly when one exists from that position on |
| VersionCheck.Check | src/api/mod.rs:21-32 | the body is `{"ValidVersion":true}` exactly when the build is supported, else `{"ValidVersion":false}` |
| VersionCheck.CheckIff | src/api/mod.rs:23-29 | exactly the builds 20171027_EA, 20171103_EA and 20171117_EA are accepted |
| VersionCheck.OnlyElevenCharacters | src/api/mod.rs:23-29 | any string not 11 characters long is refused |
| VersionCheck.CaseMatters | src/api/mod.rs:29 | matching is exact: a lower-case suffix is refused |
| Text.Split | src/main.rs:243 | splitting at a character gives one more piece than the string has occurrences of it, and no piece contains it |
| Auth.BearerToken | src/main.rs:242-262 | no header gives "no auth header"; a present header with the wrong shape gives "invalid auth header"; a token never contains a space |
| Auth.BearerTokenShape | src/main.rs:243-247 | a header is accepted with token t exactly when it is "Bearer", one space, then t, and t has no space |
| Auth.Authorize | src/main.rs:242-262 | success exactly when the header shape is right and the token verifies, with the account id and version from its claims; a token error exactly when the shape is right but verification fails |
| Auth.OnlyFirstHeaderCounts | src/main.rs:242-260 | headers after the first never change the outcome |
| Auth.AcceptedHeader | src/main.rs:243-247 | an accepted header starts with "Bearer " and the rest is the token, without spaces |
| Auth.AcceptedExamples | src/main.rs:243-247 | "Bearer abc" gives token "abc", "Bearer " gives the empty token, and no header gives "no auth header" |
| Auth.LowerCaseSchemeRejected | src/main.rs:245-247 | "bearer abc" is rejected |
| Auth.DoubleSpaceRejected | src/main.rs:245-247 | "Bearer  abc" is rejected |
| Auth.BlankInTokenRejected | src/main.rs:245-247 | "Bearer a c" is rejected |
| Auth.MissingSpaceRejected | src/main.rs:245-247 | "Bearerabc" is rejected |
| Scenarios.UpdateFrameApplies | src/ws/mod.rs:118-131 | an update frame carrying 32-bit ids is executed for a connected caller exactly as the subscription walk, and ignored for an unknown caller |
| Scenarios.FollowScenario | src/ws/api/sub.rs:35-42 | with 42 and 7 connected, 7 following 42 makes 42's list [7]; a presence broadcast for 42 reaches 7, fails if 7's channel refuses, and panics for the unconnected 99 |
| Scenarios.SelfFollowScenario | src/ws/api/sub.rs:35-42 | the command `PlayerIds:[7]` from 7 puts 7 in its own list and leaves 42's list empty |
| Scenarios.DisconnectScenario | src/ws/mod.rs:109-114 | after 7 disconnects, 42 has no subscribers, and a broadcast for 7 panics |
| Scenarios.TwoCreatesScenario | src/main.rs:192-215 | two creates for charades in eu give different ids, both in eu, empty, capacity 40, with their own room ids, and the first is kept |
| Scenarios.TwoCreatesFromEmpty | src/main.rs:205-211 | from an empty directory the two creates get ids 0 and 1 |

## Left out

- Sockets, tokio tasks and the mutexes are not modelled. Every operation is one atomic step on the table. Two gaps between separate lock acquisitions are not modelled:
  - `reserve_photon_instance` scans and inserts under different locks;
  - `connection` checks and inserts under different locks.

  A concurrent interleaving could insert twice there.
- After a panic, the mutex is poisoned and later `lock().unwrap()` calls panic too. The model returns the pre-panic state and does not track poisoning.
- The outbound channel (`channel(64)`), its bound and its forwarding task are reduced to the delivery oracle `ready`.
- JWT decoding and expiry are the parameter `verify`. Issuing tokens (`create_jwt`) needs a clock and a key, so it is not modelled.
- UUID generation and `thread_rng` are parameters, and so is the serde serialization of the presence update. JSON text is not lexed. Frames are modelled by the JSON value they parse to.
- serde decoding details are not modelled:
  - reading a struct from a JSON array;
  - duplicate keys;
  - numbers written with fractions or exponents, and the literal `-0`, which serde_json reads as a float (only another integer literal reads as an `i32`; all of these are `Json.Fraction`).
- Decimal.ParseI32: the Rust parser's error kinds (empty, invalid digit, overflow) collapse to `None`.
- Directory.Reserve: the `player_count + 1` addition is `u32` in the source. Overflow is not modelled, because stored sessions always have 0 players (`Directory.ReserveKeepsPristine`, `Directory.CreateKeepsPristine`).
- GameSessions.JoinRandom: `ExpectedPlayerIds` and the region of a joined session are not checked against anything, because the source ignores them.
- GameSessions.JoinRandom: the upper bound on the random index is the caller's choice of `idx`. Its distribution is not modelled.
- GameSessions.FromPhotonInstance: the `MaxCapacity` wrap-around is stated only for capacities that fit in an `i32`. Larger values are given by `GameSessions.U32AsI32`.
- Other endpoints are outside this model: `report_join_result` and `list_public_events` are stubs, and the database-backed endpoints, `photon.rs` beyond the session record, configuration, the Rocket wiring and the helper scripts are left out too.

=== FILE: auth.dfy ===
/** The Authorization request guard of the HTTP API: only the first
    `Authorization` header is looked at, it must read `Bearer <token>` with a
    single space, and the token is then handed to the JWT verifier. */
module Auth {
  import opened Wrappers
  import Text

  /** The authenticated caller (`Player`). */
  datatype Player = Player(accountId: int, gameVer: string)

  /** The claims a valid token carries: the account id and the game version. */
  datatype Claims = Claims(sub: int, vers: string)

  datatype AuthError = NoAuthHeader | InvalidAuthHeader | TokenError

  const SCHEME: string := "Bearer"

  /** The header-shape check: no header at all, a first header that does not
      split on ' ' into exactly `Bearer` and one more piece, or the token. */
  function BearerToken(values: seq<string>): (r: Result<string, AuthError>)
    ensures r == Err(NoAuthHeader) <==> |values| == 0
    ensures r.Err? && |values| > 0 ==> r.error == InvalidAuthHeader
    ensures r.Ok? ==> ' ' !in r.value
  {
    if |values| == 0 then Err(NoAuthHeader)
    else
      var parts := Text.Split(values[0], ' ');
      if |parts| != 2 || parts[0] != SCHEME then Err(InvalidAuthHeader)
      else Ok(parts[1])
  }

  /** The whole guard. The signature check of `jsonwebtoken::decode` (key,
      HS256, expiry) is the parameter `verify`. */
  function Authorize(values: seq<string>, verify: string -> Option<Claims>): (r: Result<Player, AuthError>)
    ensures r.Ok? <==> BearerToken(values).Ok? && verify(BearerToken(values).value).Some?
    ensures r == Err(TokenError) <==> BearerToken(values).Ok? && verify(BearerToken(values).value).None?
    ensures r.Ok? ==> (r.value.accountId == verify(BearerToken(values).value).value.sub &&
                       r.value.gameVer == verify(BearerToken(values).value).value.vers)
  {
    match BearerToken(values)
    case Err(e) => Err(e)
    case Ok(token) =>
      match verify(token)
      case None => Err(TokenError)
      case Some(c) => Ok(Player(c.sub, c.vers))
  }

  lemma JoinTwo(a: string, b: string, c: char)
    ensures Text.Join([a, b], c) == a + [c] + b
  {
    assert [a, b][1..] == [b];
  }

  /** A header is accepted exactly when it is `Bearer`, one space, and a token
      without spaces; the token is what follows the space. */
  lemma BearerTokenShape(values: seq<string>, t: string)
    requires |values| > 0
    ensures BearerToken(values) == Ok(t) <==> values[0] == SCHEME + " " + t && ' ' !in t
  {
    var parts := Text.Split(values[0], ' ');
    if BearerToken(values) == Ok(t) {
      Text.JoinSplit(values[0], ' ');
      assert parts == [parts[0], parts[1]];
      JoinTwo(SCHEME, t, ' ');
    }
    if values[0] == SCHEME + " " + t && ' ' !in t {
      JoinTwo(SCHEME, t, ' ');
      Text.SplitJoin([SCHEME, t], ' ');
    }
  }

  /** Headers after the first never matter, even when the first is rejected. */
  lemma OnlyFirstHeaderCounts(values: seq<string>, verify: string -> Option<Claims>)
    requires |values| > 0
    ensures Authorize(values, verify) == Authorize(values[..1], verify)
  {
  }

  /** Concrete headers that pass the shape check; an empty token passes it
      too and is left to the JWT verifier. */
  lemma AcceptedExamples()
    ensures BearerToken(["Bearer abc"]) == Ok("abc")
    ensures BearerToken(["Bearer "]) == Ok("")
    ensures BearerToken([]) == Err(NoAuthHeader)
  {
    BearerTokenShape(["Bearer abc"], "abc");
    BearerTokenShape(["Bearer "], "");
  }

  /** What an accepted header looks like, read off the header itself. */
  lemma AcceptedHeader(values: seq<string>)
    requires |values| > 0
    ensures BearerToken(values).Ok? ==>
      && |values[0]| >= 7
      && values[0][..7] == SCHEME + " "
      && values[0][7..] == BearerToken(values).value
      && ' ' !in values[0][7..]
  {
    if BearerToken(values).Ok? {
      BearerTokenShape(values, BearerToken(values).value);
    }
  }

  /** A lower-case scheme is rejected. */
  lemma LowerCaseSchemeRejected()
    ensures BearerToken(["bearer abc"]) == Err(InvalidAuthHeader)
  {
    AcceptedHeader(["bearer abc"]);
    assert "bearer abc"[..7][0] == 'b';
  }

  /** A doubled space is rejected. */
  lemma DoubleSpaceRejected()
    ensures BearerToken(["Bearer  abc"]) == Err(InvalidAuthHeader)
  {
    AcceptedHeader(["Bearer  abc"]);
    assert "Bearer  abc"[7..][0] == ' ';
  }

  /** A blank inside the token is rejected. */
  lemma BlankInTokenRejected()
    ensures BearerToken(["Bearer a c"]) == Err(InvalidAuthHeader)
  {
    AcceptedHeader(["Bearer a c"]);
    assert "Bearer a c"[7..][1] == ' ';
  }

  /** A header without the separating space is rejected. */
  lemma MissingSpaceRejected()
    ensures BearerToken(["Bearerabc"]) == Err(InvalidAuthHeader)
  {
    AcceptedHeader(["Bearerabc"]);
    assert "Bearerabc"[..7][6] == 'a';
  }
}

=== FILE: broadcast.dfy ===
/** The presence fan-out (`Global::send_msg_to_subscribed`): one envelope,
    sent to the target's subscribers in list order, stopping at the first
    failed send. Whether a subscriber's channel accepts the frame is an
    oracle: the set `ready` of accounts whose channel takes it. */
module Broadcast {
  import opened Decimal
  import opened WsTypes
  import Text

  /** The wire envelope `{"Id":<msgId>,"Msg":<payload>}`, the payload being
      already serialized JSON. */
  function Envelope(msgId: int, payload: string): (r: string)
    ensures |r| == |IntToString(msgId)| + |payload| + 14
    ensures r[..6] == "{\"Id\":" && r[6..6 + |IntToString(msgId)|] == IntToString(msgId)
    ensures r[6 + |IntToString(msgId)|..|r| - |payload| - 1] == ",\"Msg\":"
    ensures r[|r| - |payload| - 1..|r| - 1] == payload && r[|r| - 1] == '}'
  {
    EnvelopeLayout(IntToString(msgId), payload);
    "{\"Id\":" + (IntToString(msgId) + [','] + MsgTail(payload))
  }

  /** Where the pieces of an envelope sit, for any id text. */
  lemma EnvelopeLayout(id: string, payload: string)
    ensures var r := "{\"Id\":" + (id + [','] + MsgTail(payload));
      && |r| == |id| + |payload| + 14
      && r[..6] == "{\"Id\":" && r[6..6 + |id|] == id
      && r[6 + |id|..|r| - |payload| - 1] == ",\"Msg\":"
      && r[|r| - |payload| - 1..|r| - 1] == payload && r[|r| - 1] == '}'
  {
    var r := "{\"Id\":" + (id + [','] + MsgTail(payload));
    SliceAt(r, 0, "{\"Id\":");
    SliceAt(r, 6, id);
    SliceAt(r, 6 + |id|, ",\"Msg\":");
    SliceAt(r, 13 + |id|, payload);
  }

  /** A slice equals a piece when it agrees with it index by index. */
  lemma SliceAt(s: string, lo: nat, piece: string)
    requires lo + |piece| <= |s|
    requires forall i :: 0 <= i < |piece| ==> s[lo + i] == piece[i]
    ensures s[lo..lo + |piece|] == piece
  {
  }

  /** How a fan-out ended: every send went out, a send to `target` failed,
      or the server panicked on an account missing from the table. */
  datatype Status = Delivered | SendFailed(target: int) | Panicked

  /** The frame, the accounts it reached (in order) and how it ended. */
  datatype Fanout = Fanout(frame: string, sentTo: seq<int>, status: Status)

  /** The send loop over `targets`. */
  function SendAll(players: Players, targets: seq<int>, ready: set<int>, frame: string): (r: Fanout)
    ensures r.frame == frame
    ensures |r.sentTo| <= |targets| && r.sentTo == targets[..|r.sentTo|]
    ensures forall i :: 0 <= i < |r.sentTo| ==> r.sentTo[i] in players && r.sentTo[i] in ready
    ensures r.status == Delivered <==> r.sentTo == targets
    ensures r.status.SendFailed? ==>
      |r.sentTo| < |targets| && r.status.target == targets[|r.sentTo|]
      && targets[|r.sentTo|] in players && targets[|r.sentTo|] !in ready
    ensures r.status == Panicked ==> |r.sentTo| < |targets| && targets[|r.sentTo|] !in players
  {
    if |targets| == 0 then Fanout(frame, [], Delivered)
    else if targets[0] !in players then Fanout(frame, [], Panicked)
    else if targets[0] !in ready then Fanout(frame, [], SendFailed(targets[0]))
    else
      var rest := SendAll(players, targets[1..], ready, frame);
      Fanout(frame, [targets[0]] + rest.sentTo, rest.status)
  }

  /** `send_msg_to_subscribed`: the envelope goes to the subscribers of
      `accountId`; the server panics when `accountId` is not connected. */
  function Broadcast(players: Players, msgId: int, payload: string, accountId: int, ready: set<int>): (r: Fanout)
    ensures r.frame == Envelope(msgId, payload)
    ensures accountId !in players ==> r.status == Panicked && r.sentTo == []
    ensures accountId in players ==>
      var subs := players[accountId].subbedBy;
      |r.sentTo| <= |subs| && r.sentTo == subs[..|r.sentTo|]
    ensures forall i :: 0 <= i < |r.sentTo| ==> r.sentTo[i] in ready
  {
    var frame := Envelope(msgId, payload);
    if accountId !in players then Fanout(frame, [], Panicked)
    else SendAll(players, players[accountId].subbedBy, ready, frame)
  }

  /** A broadcast succeeds exactly when the target is connected and every
      subscriber is connected and accepts the frame; then all of them got it. */
  lemma BroadcastDeliveredIff(players: Players, msgId: int, payload: string, accountId: int, ready: set<int>)
    ensures Broadcast(players, msgId, payload, accountId, ready).status == Delivered <==>
      accountId in players &&
      forall i :: 0 <= i < |players[accountId].subbedBy| ==>
        players[accountId].subbedBy[i] in players && players[accountId].subbedBy[i] in ready
  {
    if accountId in players {
      var subs := players[accountId].subbedBy;
      var r := SendAll(players, subs, ready, Envelope(msgId, payload));
      if r.status != Delivered {
        assert |r.sentTo| < |subs|;
      }
    }
  }

  /** The first failure ends the fan-out: the failing subscriber is the one
      right after those reached, and nobody after it is tried. */
  lemma BroadcastStopsAtFirstFailure(players: Players, msgId: int, payload: string, accountId: int, ready: set<int>)
    requires accountId in players
    ensures var r := Broadcast(players, msgId, payload, accountId, ready);
      var subs := players[accountId].subbedBy;
      r.status.SendFailed? ==>
        && |r.sentTo| < |subs|
        && r.status.target == subs[|r.sentTo|]
        && r.status.target !in ready
        && (forall i :: 0 <= i < |r.sentTo| ==> subs[i] in ready)
  {
  }

  /** In a well-formed table the fan-out to a connected account never
      panics: each subscriber is connected. */
  lemma WellFormedBroadcastNeverPanics(players: Players, msgId: int, payload: string, accountId: int, ready: set<int>)
    requires WellFormed(players) && accountId in players
    ensures Broadcast(players, msgId, payload, accountId, ready).status != Panicked
  {
    var subs := players[accountId].subbedBy;
    assert SubscribersOk(players, subs);
  }

  /** The envelope determines its message kind and payload. */
  lemma EnvelopeInjective(id1: int, payload1: string, id2: int, payload2: string)
    requires Envelope(id1, payload1) == Envelope(id2, payload2)
    ensures id1 == id2 && payload1 == payload2
  {
    var tail1 := MsgTail(payload1);
    var tail2 := MsgTail(payload2);
    StripPrefix("{\"Id\":", IntToString(id1) + [','] + tail1, IntToString(id2) + [','] + tail2);
    IntToStringAlphabet(id1);
    IntToStringAlphabet(id2);
    Text.SplitAtFirst(IntToString(id1), tail1, IntToString(id2), tail2, ',');
    IntToStringInjective(id1, id2);
    MsgTailPayload(payload1);
    MsgTailPayload(payload2);
  }

  /** What follows the comma of an envelope. */
  function MsgTail(payload: string): string
  {
    "\"Msg\":" + payload + "}"
  }

  lemma MsgTailPayload(payload: string)
    ensures |MsgTail(payload)| == |payload| + 7
    ensures MsgTail(payload)[6..|payload| + 6] == payload
  {
  }

  lemma StripPrefix(p: string, a: string, b: string)
    requires p + a == p + b
    ensures a == b
  {
    assert a == (p + a)[|p|..];
    assert b == (p + b)[|p|..];
  }
}

=== FILE: connection.dfy ===
/** The connection life cycle of the real-time server: the one-frame
    handshake, register-if-absent, inbound command handling and the purge on
    disconnect. Sockets, tasks and the lock are not modelled; every step is
    atomic. */
module Connection {
  import opened Wrappers
  import opened Decimal
  import opened Seqs
  import opened Json
  import opened WsTypes
  import Dispatch
  import Subscriptions

  /** The fixed acknowledgement sent after a good handshake. */
  const ACK: string := "{\"SessionId\":567}"

  /** The handshake record (`HandshakeMessage`). */
  datatype Hello = Hello(playerId: int, appVersion: string)

  /** serde reading of the handshake: string members `PlayerId`, which must
      parse as an i32, and `AppVersion`. Other members are ignored. */
  function DecodeHandshake(v: Value): (r: Option<Hello>)
    ensures r.Some? ==> IsI32(r.value.playerId)
    ensures r.Some? ==> exists s :: Member(v, "PlayerId") == Some(Str(s)) && ParseI32(s) == Some(r.value.playerId)
    ensures r.Some? ==> Member(v, "AppVersion") == Some(Str(r.value.appVersion))
    ensures forall s, version :: Member(v, "PlayerId") == Some(Str(s)) && ParseI32(s).Some?
                                 && Member(v, "AppVersion") == Some(Str(version)) ==>
      r == Some(Hello(ParseI32(s).value, version))
  {
    match (Member(v, "PlayerId"), Member(v, "AppVersion"))
    case (Some(Str(id)), Some(Str(version))) =>
      (match ParseI32(id)
       case Some(n) => Some(Hello(n, version))
       case None => None)
    case _ => None
  }

  /** The handshake a client sends: the id written as a decimal string. */
  function EncodeHandshake(h: Hello): Value
  {
    Object(map["PlayerId" := Str(IntToString(h.playerId)), "AppVersion" := Str(h.appVersion)])
  }

  /** Every handshake with a 32-bit id reads back as itself. */
  lemma DecodeEncodeHandshake(h: Hello)
    requires IsI32(h.playerId)
    ensures DecodeHandshake(EncodeHandshake(h)) == Some(h)
  {
    var v := EncodeHandshake(h);
    assert Member(v, "PlayerId") == Some(Str(IntToString(h.playerId)));
    assert Member(v, "AppVersion") == Some(Str(h.appVersion));
    ParseIntToString(h.playerId);
  }

  /** What the handshake phase did: the frames it sent and, when the
      connection goes live, the handshake it accepted. */
  datatype Handshake = Handshake(sent: seq<string>, hello: Option<Hello>)

  /** `start_connection` up to registration. `first` is the first frame
      (`None` when the stream ended or failed first); `ackDelivered` is the
      outcome of sending the acknowledgement. */
  function AcceptHandshake(first: Option<Message>, ackDelivered: bool): (r: Handshake)
    ensures r.sent == [] || r.sent == [ACK]
    ensures r.hello.Some? ==> r.sent == [ACK] && ackDelivered
    ensures r.sent == [ACK] ==>
      first.Some? && first.value.Text? && first.value.json.Some? && DecodeHandshake(first.value.json.value).Some?
    ensures first.Some? && first.value.Text? && first.value.json.Some? && DecodeHandshake(first.value.json.value).Some? ==>
      r == Handshake([ACK], if ackDelivered then DecodeHandshake(first.value.json.value) else None)
  {
    match first
    case Some(Text(Some(v))) =>
      (match DecodeHandshake(v)
       case Some(h) => if ackDelivered then Handshake([ACK], Some(h)) else Handshake([ACK], None)
       case None => Handshake([], None))
    case _ => Handshake([], None)
  }

  /** Register-if-absent (`connection`): a second connection for an account
      that is already in the table is dropped and the table is unchanged. */
  function Register(players: Players, id: int, version: string): (r: Players)
    ensures id in players ==> r == players
    ensures id !in players ==> r.Keys == players.Keys + {id} && r[id] == NewPlayerData(version)
    ensures forall k :: k in players ==> r[k] == players[k]
  {
    if id in players then players else players[id := NewPlayerData(version)]
  }

  /** The purge on disconnect: the account is removed from every subscriber
      list, then its own entry is deleted. */
  function Disconnect(players: Players, id: int): (r: Players)
    ensures r.Keys == players.Keys - {id}
    ensures forall k :: k in r ==> id !in r[k].subbedBy
  {
    map k | k in players && k != id :: players[k].(subbedBy := Without(players[k].subbedBy, id))
  }

  /** The handshake followed by registration. */
  function Open(players: Players, first: Option<Message>, ackDelivered: bool): (r: Players)
    ensures r != players ==>
      && ackDelivered
      && AcceptHandshake(first, ackDelivered).hello.Some?
      && AcceptHandshake(first, ackDelivered).hello.value.playerId !in players
    ensures AcceptHandshake(first, ackDelivered).hello.Some? ==>
      var h := AcceptHandshake(first, ackDelivered).hello.value;
      r == (if h.playerId in players then players else players[h.playerId := NewPlayerData(h.appVersion)])
  {
    match AcceptHandshake(first, ackDelivered).hello
    case None => players
    case Some(h) => Register(players, h.playerId, h.appVersion)
  }

  /** A text frame holding a valid handshake registers its account exactly
      when the acknowledgement was delivered and the account is not yet
      connected; otherwise the table is left as it was. */
  lemma OpenRegistersHandshake(players: Players, v: Value, ackDelivered: bool)
    requires DecodeHandshake(v).Some?
    ensures var h := DecodeHandshake(v).value;
      Open(players, Some(Text(Some(v))), ackDelivered) ==
        (if ackDelivered && h.playerId !in players then players[h.playerId := NewPlayerData(h.appVersion)] else players)
  {
  }

  /** `handle_incoming`: frames other than text, and text that is not a
      command, are ignored; a command is executed and its error, if any, is
      only logged. */
  function HandleIncoming(players: Players, caller: int, msg: Message): (r: Players)
    ensures r != players ==> msg.Text? && msg.json.Some? && DecodeApiRequest(msg.json.value).Some?
                             && DecodeApiRequest(msg.json.value).value.api == Dispatch.UPDATE_PATH
                             && Dispatch.Execute(DecodeApiRequest(msg.json.value).value, caller, players).result.Ok?
    ensures msg.Text? && msg.json.Some? && DecodeApiRequest(msg.json.value).Some? ==>
      r == Dispatch.Execute(DecodeApiRequest(msg.json.value).value, caller, players).players
    ensures !(msg.Text? && msg.json.Some? && DecodeApiRequest(msg.json.value).Some?) ==> r == players
  {
    match msg
    case Text(Some(v)) =>
      (match DecodeApiRequest(v)
       case Some(req) => Dispatch.Execute(req, caller, players).players
       case None => players)
    case _ => players
  }

  /** A client that sends `{"PlayerId":"42","AppVersion":"1.0"}` is
      acknowledged with the fixed frame and, when the acknowledgement goes
      out, registered as account 42 with no subscribers. */
  lemma HandshakeExample(players: Players)
    requires 42 !in players
    ensures var first := Some(Text(Some(EncodeHandshake(Hello(42, "1.0")))));
      && AcceptHandshake(first, true) == Handshake([ACK], Some(Hello(42, "1.0")))
      && Open(players, first, true) == players[42 := PlayerData([], "1.0")]
      && Open(players, first, false) == players
  {
    DecodeEncodeHandshake(Hello(42, "1.0"));
  }

  /** Registration changes only the new account's entry and adds no
      subscriber, so it keeps the registry invariant. */
  lemma RegisterKeepsWellFormed(players: Players, id: int, version: string)
    requires WellFormed(players)
    ensures WellFormed(Register(players, id, version))
  {
    var r := Register(players, id, version);
    forall k | k in r ensures SubscribersOk(r, r[k].subbedBy) {
      if k in players {
        var s := players[k].subbedBy;
        assert forall i :: 0 <= i < |s| ==> s[i] in players;
      }
    }
  }

  /** After a disconnect the account is in nobody's list, every other
      subscriber keeps its count and its place in every list, and versions
      are kept. */
  lemma DisconnectPurges(players: Players, id: int, k: int, y: int)
    requires k in players && k != id
    ensures var r := Disconnect(players, id);
      && k in r
      && r[k].subbedBy == Without(players[k].subbedBy, id)
      && Count(r[k].subbedBy, id) == 0
      && (y != id ==> Count(r[k].subbedBy, y) == Count(players[k].subbedBy, y))
      && r[k].gameVersion == players[k].gameVersion
  {
    CountWithout(players[k].subbedBy, id, id);
    CountWithout(players[k].subbedBy, id, y);
  }

  /** Disconnect keeps the registry invariant: the departing id leaves
      every list together with its key. */
  lemma DisconnectKeepsWellFormed(players: Players, id: int)
    requires WellFormed(players)
    ensures WellFormed(Disconnect(players, id))
  {
    var r := Disconnect(players, id);
    forall k | k in r ensures SubscribersOk(r, r[k].subbedBy) {
      var s := players[k].subbedBy;
      var w := r[k].subbedBy;
      forall i | 0 <= i < |w| ensures w[i] in r {
        assert w[i] in w;
      }
      NoDupByCount(s);
      NoDupByCount(w);
      forall y ensures Count(w, y) <= 1 {
        CountWithout(s, id, y);
      }
    }
  }

  /** Connecting a new account and disconnecting it again, with nothing in
      between, restores the table. */
  lemma RegisterThenDisconnect(players: Players, id: int, version: string)
    requires WellFormed(players) && id !in players
    ensures Disconnect(Register(players, id, version), id) == players
  {
    var r := Disconnect(Register(players, id, version), id);
    forall k | k in players ensures r[k] == players[k] {
      var s := players[k].subbedBy;
      assert SubscribersOk(players, s);
      assert id !in s;
      WithoutAbsent(s, id);
    }
  }

  /** One event of the registry's life. */
  datatype Event =
    | Connect(first: Option<Message>, ackDelivered: bool)
    | Receive(caller: int, msg: Message)
    | Close(id: int)

  function Step(players: Players, e: Event): Players
  {
    match e
    case Connect(first, ackDelivered) => Open(players, first, ackDelivered)
    case Receive(caller, msg) => HandleIncoming(players, caller, msg)
    case Close(id) => Disconnect(players, id)
  }

  /** The table after a sequence of events, applied in order. */
  function Run(players: Players, events: seq<Event>): Players
    decreases |events|
  {
    if |events| == 0 then players else Run(Step(players, events[0]), events[1..])
  }

  lemma StepKeepsWellFormed(players: Players, e: Event)
    requires WellFormed(players)
    ensures WellFormed(Step(players, e))
  {
    match e
    case Connect(first, ackDelivered) =>
      var h := AcceptHandshake(first, ackDelivered).hello;
      if h.Some? {
        RegisterKeepsWellFormed(players, h.value.playerId, h.value.appVersion);
      }
    case Receive(caller, msg) =>
      if msg.Text? && msg.json.Some? && DecodeApiRequest(msg.json.value).Some? {
        var req := DecodeApiRequest(msg.json.value).value;
        var o := Dispatch.Execute(req, caller, players);
        if o.result.Ok? && req.api == Dispatch.UPDATE_PATH {
          var ids := Subscriptions.DecodeUpdateParams(req.param.value).value;
          Subscriptions.ResubscribeKeepsWellFormed(players, caller, ids);
        }
      }
    case Close(id) =>
      DisconnectKeepsWellFormed(players, id);
  }

  /** Every reachable table satisfies the registry invariant: it holds for
      the empty table and survives every event. */
  lemma {:induction false} RunKeepsWellFormed(players: Players, events: seq<Event>)
    requires WellFormed(players)
    ensures WellFormed(Run(players, events))
    decreases |events|
  {
    if |events| > 0 {
      StepKeepsWellFormed(players, events[0]);
      RunKeepsWellFormed(Step(players, events[0]), events[1..]);
    }
  }
}

=== FILE: decimal.dfy ===
/** Decimal text of 32-bit signed integers: Rust's `Display` for `i32` and
    `i32::from_str` (an optional sign, then one or more ASCII digits, the value
    required to fit in 32 bits). */
module Decimal {
  import opened Wrappers

  const I32_MIN: int := -0x8000_0000
  const I32_MAX: int := 0x7fff_ffff

  predicate IsI32(n: int)
  {
    I32_MIN <= n <= I32_MAX
  }

  predicate IsDigit(c: char)
  {
    '0' <= c <= '9'
  }

  predicate AllDigits(s: string)
  {
    forall i :: 0 <= i < |s| ==> IsDigit(s[i])
  }

  function DigitValue(c: char): nat
    requires IsDigit(c)
  {
    (c as int) - ('0' as int)
  }

  function DigitChar(d: nat): (c: char)
    requires d < 10
    ensures IsDigit(c) && DigitValue(c) == d
  {
    (('0' as int) + d) as char
  }

  /** The value of a digit string, most significant digit first. */
  function DigitsValue(s: string): nat
    requires AllDigits(s)
  {
    if |s| == 0 then 0 else DigitsValue(s[..|s| - 1]) * 10 + DigitValue(s[|s| - 1])
  }

  /** Shortest decimal text of `n`. */
  function NatToString(n: nat): (s: string)
    ensures |s| > 0 && AllDigits(s)
  {
    if n < 10 then [DigitChar(n)] else NatToString(n / 10) + [DigitChar(n % 10)]
  }

  /** Rust `Display` for integers: `-` before the digits of a negative value. */
  function IntToString(n: int): string
  {
    if n < 0 then "-" + NatToString(-n) else NatToString(n)
  }

  /** The value of a magnitude with a sign. */
  function Signed(negative: bool, magnitude: nat): int
  {
    if negative then 0 - magnitude else magnitude
  }

  /** The digits of `s` once a leading sign, if any, is taken off. */
  function Unsigned(s: string): string
  {
    if |s| > 0 && (s[0] == '-' || s[0] == '+') then s[1..] else s
  }

  /** Rust `i32::from_str`: `None` for the empty string, a lone sign, any
      character other than a digit after the optional sign, or a value
      outside the 32-bit range. */
  function ParseI32(s: string): Option<int>
  {
    var digits := Unsigned(s);
    if |s| == 0 || |digits| == 0 || !AllDigits(digits) then None
    else
      var v := Signed(s[0] == '-', DigitsValue(digits));
      if IsI32(v) then Some(v) else None
  }

  lemma {:induction false} DigitsOfNat(n: nat)
    ensures DigitsValue(NatToString(n)) == n
  {
    if n >= 10 {
      var s := NatToString(n);
      assert s[..|s| - 1] == NatToString(n / 10);
      DigitsOfNat(n / 10);
    }
  }

  /** Reading back what `Display` wrote gives the same value for every i32. */
  lemma ParseIntToString(n: int)
    requires IsI32(n)
    ensures ParseI32(IntToString(n)) == Some(n)
  {
    ParsesAsValue(n);
  }

  /** Text of a value outside the 32-bit range is rejected: overflow is an error. */
  lemma ParseRejectsOverflow(n: int)
    requires !IsI32(n)
    ensures ParseI32(IntToString(n)) == None
  {
    ParsesAsValue(n);
  }

  /** Shared step of the two lemmas above: the digits `Display` writes read back as `n`. */
  lemma ParsesAsValue(n: int)
    ensures var s := IntToString(n);
      |s| > 0 && |Unsigned(s)| > 0 && AllDigits(Unsigned(s))
      && Signed(s[0] == '-', DigitsValue(Unsigned(s))) == n
  {
    var s := IntToString(n);
    if n < 0 {
      assert s[1..] == NatToString(-n);
      DigitsOfNat(-n);
    } else {
      DigitsOfNat(n);
    }
  }

  /** An accepted string has at most one leading sign and only digits after it,
      and only a leading `-` yields a negative value. */
  lemma ParseShape(s: string)
    requires ParseI32(s).Some?
    ensures |s| > 0
    ensures forall i :: 1 <= i < |s| ==> IsDigit(s[i])
    ensures IsDigit(s[0]) || ((s[0] == '-' || s[0] == '+') && |s| > 1)
    ensures ParseI32(s).value < 0 ==> s[0] == '-'
  {
    var d := Unsigned(s);
    forall i | 1 <= i < |s| ensures IsDigit(s[i]) {
      if s[0] == '-' || s[0] == '+' {
        assert s[i] == d[i - 1];
      } else {
        assert s[i] == d[i];
      }
    }
    if !(s[0] == '-' || s[0] == '+') {
      assert s[0] == d[0];
    }
  }

  /** Concrete cases of Rust's integer parsing: leading zeros and `+` are
      accepted; the empty string, a lone sign, two signs and a leading blank
      are not. */
  lemma ParseExamples()
    ensures ParseI32("42") == Some(42)
    ensures ParseI32("+7") == Some(7)
    ensures ParseI32("-007") == Some(-7)
    ensures ParseI32("") == None
    ensures ParseI32("-") == None
    ensures ParseI32("+-1") == None
    ensures ParseI32(" 1") == None
  {
    assert DigitsValue("42") == 42 by {
      assert "42"[..1] == "4";
      assert "4"[..0] == "";
    }
    assert Unsigned("+7") == "7";
    assert DigitsValue("7") == 7 by {
      assert "7"[..0] == "";
    }
    assert Unsigned("-007") == "007";
    assert DigitsValue("007") == 7 by {
      assert "007"[..2] == "00";
      assert "00"[..1] == "0";
      assert "0"[..0] == "";
    }
    assert Unsigned("+-1") == "-1";
    assert !IsDigit(Unsigned("+-1")[0]);
    assert !IsDigit(Unsigned(" 1")[0]);
  }

  lemma DigitsValueStep(s: string, i: int, j: int)
    requires 0 <= i < j <= |s| && AllDigits(s[i..j])
    ensures AllDigits(s[i..j - 1])
    ensures DigitsValue(s[i..j]) == DigitsValue(s[i..j - 1]) * 10 + DigitValue(s[j - 1])
  {
    assert s[i..j][..j - i - 1] == s[i..j - 1];
  }

  /** A longer digit string never has a smaller value than its prefix. */
  lemma {:induction false} DigitsValuePrefix(s: string, k: nat)
    requires AllDigits(s) && k <= |s|
    ensures AllDigits(s[..k]) && DigitsValue(s[..k]) <= DigitsValue(s)
  {
    if k < |s| {
      DigitsValuePrefix(s[..|s| - 1], k);
      assert s[..|s| - 1][..k] == s[..k];
    } else {
      assert s[..k] == s;
    }
  }

  /** Rust's `from_str_radix` loop for `i32`: one digit at a time, multiplying
      and then adding (or subtracting, after a `-`) with overflow checks, and
      giving up at the first bad digit or overflow. Agrees with `ParseI32`. */
  method FromStr(s: string) returns (r: Option<int>)
    ensures r == ParseI32(s)
  {
    if |s| == 0 {
      return None;
    }
    var positive := true;
    var start := 0;
    if s[0] == '+' || s[0] == '-' {
      if |s| == 1 {
        return None;
      }
      positive := s[0] == '+';
      start := 1;
    }
    assert Unsigned(s) == s[start..];
    var acc := 0;
    var i := start;
    while i < |s|
      invariant start <= i <= |s|
      invariant AllDigits(s[start..i])
      invariant acc == Signed(!positive, DigitsValue(s[start..i]))
      invariant IsI32(acc)
    {
      if !IsDigit(s[i]) {
        assert !IsDigit(Unsigned(s)[i - start]);
        return None;
      }
      var d := DigitValue(s[i]);
      AppendDigit(s, start, i, !positive);
      var m := acc * 10;
      if !IsI32(m) {
        OverflowIsFinal(s, start, i + 1);
        return None;
      }
      acc := if positive then m + d else m - (d as int);
      if !IsI32(acc) {
        OverflowIsFinal(s, start, i + 1);
        return None;
      }
      i := i + 1;
    }
    assert s[start..i] == Unsigned(s);
    return Some(acc);
  }

  /** Taking one more digit into a signed accumulator multiplies it by ten and
      moves it away from zero by the digit's value. */
  lemma AppendDigit(s: string, start: int, i: int, negative: bool)
    requires 0 <= start <= i < |s| && AllDigits(s[start..i]) && IsDigit(s[i])
    ensures AllDigits(s[start..i + 1])
    ensures var before := Signed(negative, DigitsValue(s[start..i]));
      var after := Signed(negative, DigitsValue(s[start..i + 1]));
      after == if negative then before * 10 - DigitValue(s[i]) else before * 10 + DigitValue(s[i])
  {
    assert s[start..i + 1] == s[start..i] + [s[i]];
    DigitsValueStep(s, start, i + 1);
  }

  /** Once a digit prefix overflows, the whole string is rejected. */
  lemma OverflowIsFinal(s: string, start: int, j: int)
    requires |s| > 0 && start == (if s[0] == '-' || s[0] == '+' then 1 else 0)
    requires start < j <= |s| && AllDigits(s[start..j])
    requires !IsI32(Signed(s[0] == '-', DigitsValue(s[start..j])))
    ensures ParseI32(s) == None
  {
    var d := Unsigned(s);
    assert d == s[start..];
    if AllDigits(d) {
      DigitsValuePrefix(d, j - start);
      assert d[..j - start] == s[start..j];
    }
  }

  /** `Display` writes only digits and a leading minus sign. */
  lemma IntToStringAlphabet(n: int)
    ensures forall i :: 0 <= i < |IntToString(n)| ==> IsDigit(IntToString(n)[i]) || IntToString(n)[i] == '-'
  {
  }

  /** Different integers are displayed differently. */
  lemma IntToStringInjective(a: int, b: int)
    requires IntToString(a) == IntToString(b)
    ensures a == b
  {
    ParsesAsValue(a);
    ParsesAsValue(b);
  }
}

=== FILE: directory.dfy ===
/** The in-memory game-session directory and its reserve-or-create allocator
    (`Global::reserve_photon_instance`, `Global::create_photon_instance`).
    Each operation is one atomic step; the lock is not modelled. The random
    room id and, for the reserve scan, the hash map's iteration order are
    parameters. */
module Directory {
  import opened Wrappers
  import opened Decimal
  import opened Seqs
  import opened Photon

  /** Capacity of a new session; the same for every activity. */
  function CapacityForActivity(activityId: string): (c: U32)
    ensures c == 40
  {
    40
  }

  /** The reserve scan's test: public, room for one more player, same
      activity, same game version. The region plays no part. */
  predicate Joinable(inst: Instance, activityId: string, gameVersion: string)
  {
    && !inst.private
    && inst.playerCount + 1 <= inst.capacity
    && inst.activityId == activityId
    && inst.gameVersion == gameVersion
  }

  /** `order` lists every session id exactly once: one possible iteration
      order of the directory's hash map. */
  predicate Enumerates(order: seq<int>, sessions: Sessions)
  {
    && (forall i :: 0 <= i < |order| ==> order[i] in sessions)
    && (forall k :: k in sessions ==> k in order)
    && NoDup(order)
  }

  /** Position, at or after `from`, of the first joinable session in `order`. */
  function FirstJoinable(sessions: Sessions, order: seq<int>, from: nat,
                         activityId: string, gameVersion: string): (r: Option<nat>)
    requires forall i :: 0 <= i < |order| ==> order[i] in sessions
    requires from <= |order|
    ensures r.Some? ==> from <= r.value < |order| && Joinable(sessions[order[r.value]], activityId, gameVersion)
    ensures r.Some? ==> forall j :: from <= j < r.value ==> !Joinable(sessions[order[j]], activityId, gameVersion)
    ensures r.None? ==> forall j :: from <= j < |order| ==> !Joinable(sessions[order[j]], activityId, gameVersion)
    decreases |order| - from
  {
    if from == |order| then None
    else if Joinable(sessions[order[from]], activityId, gameVersion) then Some(from)
    else FirstJoinable(sessions, order, from + 1, activityId, gameVersion)
  }

  /** `id` is the smallest id in [0, i32::MAX) that is not in use. */
  predicate IsLowestFree(sessions: Sessions, id: int)
  {
    && 0 <= id < I32_MAX
    && id !in sessions
    && forall j :: 0 <= j < id ==> j in sessions
  }

  /** Every id in [0, i32::MAX) is in use. */
  predicate Exhausted(sessions: Sessions)
  {
    forall j :: 0 <= j < I32_MAX ==> j in sessions
  }

  /** First-fit scan for a free id, from `from` up to (excluding) i32::MAX. */
  function FreeIdFrom(sessions: Sessions, from: nat): (r: Option<int>)
    requires from <= I32_MAX
    ensures r.Some? ==> from <= r.value < I32_MAX && r.value !in sessions
    ensures r.Some? ==> forall j :: from <= j < r.value ==> j in sessions
    ensures r.None? ==> forall j :: from <= j < I32_MAX ==> j in sessions
    decreases I32_MAX - from
  {
    if from == I32_MAX then None
    else if from !in sessions then Some(from)
    else FreeIdFrom(sessions, from + 1)
  }

  /** Result of an allocator call: the session id, the session returned to
      the caller, and the directory afterwards. */
  datatype Allocation = Allocation(id: int, instance: Instance, sessions: Sessions)

  /** Store `inst` under the lowest free id; `None` stands for the server's
      panic when every id is taken. */
  function Insert(sessions: Sessions, inst: Instance): (r: Option<Allocation>)
    ensures r.None? <==> Exhausted(sessions)
    ensures r.Some? ==> IsLowestFree(sessions, r.value.id) && r.value.instance == inst
    ensures r.Some? ==> r.value.sessions.Keys == sessions.Keys + {r.value.id}
    ensures r.Some? ==> r.value.sessions[r.value.id] == inst
    ensures r.Some? ==> forall k :: k in sessions ==> r.value.sessions[k] == sessions[k]
  {
    match FreeIdFrom(sessions, 0)
    case None => None
    case Some(id) => Some(Allocation(id, inst, sessions[id := inst]))
  }

  /** A session as both allocators build it: nobody in it, not started. */
  function NewInstance(activityId: string, gameVersion: string, prefRegion: string,
                       photonId: string, private: bool): (r: Instance)
    ensures r.playerCount == 0 && r.capacity == 40 && !r.inProgress
    ensures r.region == prefRegion && r.photonId == photonId && r.private == private
    ensures r.activityId == activityId && r.gameVersion == gameVersion
    ensures Joinable(r, activityId, gameVersion) <==> !private
    ensures forall a, v :: Joinable(r, a, v) ==> a == activityId && v == gameVersion
  {
    Instance(
      region := prefRegion,
      photonId := photonId,
      activityId := activityId,
      inProgress := false,
      gameVersion := gameVersion,
      private := private,
      playerCount := 0,
      capacity := CapacityForActivity(activityId))
  }

  /** `reserve_photon_instance`: hand out the first joinable session in
      `order` unchanged, otherwise create a public session in the preferred
      region under the lowest free id. */
  function Reserve(sessions: Sessions, order: seq<int>, activityId: string, gameVersion: string,
                   prefRegion: string, photonId: string): (r: Option<Allocation>)
    requires Enumerates(order, sessions)
    ensures r.None? ==> Exhausted(sessions)
    ensures r.Some? && r.value.id in sessions ==>
      && r.value.sessions == sessions
      && r.value.instance == sessions[r.value.id]
      && Joinable(r.value.instance, activityId, gameVersion)
    ensures (exists k :: k in sessions && Joinable(sessions[k], activityId, gameVersion)) ==>
      r.Some? && r.value.id in sessions
    ensures (forall k :: k in sessions ==> !Joinable(sessions[k], activityId, gameVersion)) ==>
      r == Insert(sessions, NewInstance(activityId, gameVersion, prefRegion, photonId, false))
  {
    match FirstJoinable(sessions, order, 0, activityId, gameVersion)
    case Some(i) => Some(Allocation(order[i], sessions[order[i]], sessions))
    case None => Insert(sessions, NewInstance(activityId, gameVersion, prefRegion, photonId, false))
  }

  /** `create_photon_instance`: always a new session under the lowest free
      id, with the caller's privacy flag. */
  function Create(sessions: Sessions, activityId: string, gameVersion: string, prefRegion: string,
                  private: bool, photonId: string): (r: Option<Allocation>)
    ensures r.None? <==> Exhausted(sessions)
    ensures r.Some? ==> r.value.id !in sessions && |r.value.sessions| == |sessions| + 1
    ensures r.Some? ==> r.value.id in r.value.sessions && r.value.sessions[r.value.id] == r.value.instance
    ensures r.Some? ==> r.value.instance.private == private
  {
    Insert(sessions, NewInstance(activityId, gameVersion, prefRegion, photonId, private))
  }

  /** The scan returns the first joinable session of the iteration order. */
  lemma ReserveTakesFirstInOrder(sessions: Sessions, order: seq<int>, activityId: string, gameVersion: string,
                                 prefRegion: string, photonId: string, i: nat)
    requires Enumerates(order, sessions)
    requires i < |order| && Joinable(sessions[order[i]], activityId, gameVersion)
    requires forall j :: 0 <= j < i ==> !Joinable(sessions[order[j]], activityId, gameVersion)
    ensures Reserve(sessions, order, activityId, gameVersion, prefRegion, photonId)
            == Some(Allocation(order[i], sessions[order[i]], sessions))
  {
    var f := FirstJoinable(sessions, order, 0, activityId, gameVersion);
    assert f.Some?;
    assert f.value == i;
  }

  /** When nothing is joinable, reserve stores a new public session under the
      lowest free id, with the preferred region, the requested activity and
      version, no players, not started and room for 40; every other session
      stays as it was. */
  lemma ReserveCreatesDefaultSession(sessions: Sessions, order: seq<int>, activityId: string, gameVersion: string,
                                     prefRegion: string, photonId: string)
    requires Enumerates(order, sessions)
    requires forall k :: k in sessions ==> !Joinable(sessions[k], activityId, gameVersion)
    requires !Exhausted(sessions)
    ensures var r := Reserve(sessions, order, activityId, gameVersion, prefRegion, photonId);
      && r.Some?
      && IsLowestFree(sessions, r.value.id)
      && r.value.sessions.Keys == sessions.Keys + {r.value.id}
      && r.value.sessions[r.value.id] == r.value.instance
      && (forall k :: k in sessions ==> r.value.sessions[k] == sessions[k])
      && r.value.instance.region == prefRegion
      && r.value.instance.photonId == photonId
      && r.value.instance.activityId == activityId
      && r.value.instance.gameVersion == gameVersion
      && !r.value.instance.private
      && !r.value.instance.inProgress
      && r.value.instance.playerCount == 0
      && r.value.instance.capacity == 40
  {
  }

  /** `create` likewise, with the caller's privacy flag. */
  lemma CreateDefaultSession(sessions: Sessions, activityId: string, gameVersion: string,
                             prefRegion: string, private: bool, photonId: string)
    requires !Exhausted(sessions)
    ensures var r := Create(sessions, activityId, gameVersion, prefRegion, private, photonId);
      && r.Some?
      && IsLowestFree(sessions, r.value.id)
      && r.value.sessions.Keys == sessions.Keys + {r.value.id}
      && (forall k :: k in sessions ==> r.value.sessions[k] == sessions[k])
      && r.value.instance.region == prefRegion
      && r.value.instance.photonId == photonId
      && r.value.instance.activityId == activityId
      && r.value.instance.gameVersion == gameVersion
      && r.value.instance.private == private
      && !r.value.instance.inProgress
      && r.value.instance.playerCount == 0
      && r.value.instance.capacity == 40
  {
  }

  /** Reserve never updates a player count, so once reserve has returned a
      session for an activity and version, a second reserve for the same pair
      finds a joinable session and leaves the directory as it is. */
  lemma ReserveTwiceJoins(sessions: Sessions, order: seq<int>, order': seq<int>,
                          activityId: string, gameVersion: string,
                          region1: string, photon1: string, region2: string, photon2: string)
    requires Enumerates(order, sessions)
    requires Reserve(sessions, order, activityId, gameVersion, region1, photon1).Some?
    requires Enumerates(order', Reserve(sessions, order, activityId, gameVersion, region1, photon1).value.sessions)
    ensures var first := Reserve(sessions, order, activityId, gameVersion, region1, photon1).value;
      var second := Reserve(first.sessions, order', activityId, gameVersion, region2, photon2);
      second.Some? && second.value.id in first.sessions && second.value.sessions == first.sessions
  {
    var first := Reserve(sessions, order, activityId, gameVersion, region1, photon1).value;
    if first.id !in sessions {
      if exists k :: k in sessions && Joinable(sessions[k], activityId, gameVersion) {
        assert false;
      }
      assert first.sessions[first.id] == NewInstance(activityId, gameVersion, region1, photon1, false);
    }
    assert first.id in first.sessions && Joinable(first.sessions[first.id], activityId, gameVersion);
  }

  /** Sessions as the allocators leave them: nobody in them and room for 40. */
  ghost predicate Pristine(sessions: Sessions)
  {
    forall k :: k in sessions ==> sessions[k].playerCount == 0 && sessions[k].capacity == 40
  }

  /** Both allocators keep every session pristine. */
  lemma ReserveKeepsPristine(sessions: Sessions, order: seq<int>, activityId: string, gameVersion: string,
                             prefRegion: string, photonId: string)
    requires Pristine(sessions) && Enumerates(order, sessions)
    ensures var r := Reserve(sessions, order, activityId, gameVersion, prefRegion, photonId);
      r.Some? ==> Pristine(r.value.sessions)
  {
    var r := Reserve(sessions, order, activityId, gameVersion, prefRegion, photonId);
    if r.Some? && r.value.id !in sessions {
      var f := FirstJoinable(sessions, order, 0, activityId, gameVersion);
      assert f.None?;
      InsertKeepsPristine(sessions, NewInstance(activityId, gameVersion, prefRegion, photonId, false));
    }
  }

  lemma CreateKeepsPristine(sessions: Sessions, activityId: string, gameVersion: string,
                            prefRegion: string, private: bool, photonId: string)
    requires Pristine(sessions)
    ensures var r := Create(sessions, activityId, gameVersion, prefRegion, private, photonId);
      r.Some? ==> Pristine(r.value.sessions)
  {
    InsertKeepsPristine(sessions, NewInstance(activityId, gameVersion, prefRegion, photonId, private));
  }

  lemma InsertKeepsPristine(sessions: Sessions, inst: Instance)
    requires Pristine(sessions) && inst.playerCount == 0 && inst.capacity == 40
    ensures Insert(sessions, inst).Some? ==> Pristine(Insert(sessions, inst).value.sessions)
  {
    var r := Insert(sessions, inst);
    if r.Some? {
      forall k | k in r.value.sessions
        ensures r.value.sessions[k].playerCount == 0 && r.value.sessions[k].capacity == 40
      {
        if k != r.value.id {
          assert k in sessions;
        }
      }
    }
  }

  /** In a pristine directory the capacity test never fails: a session is
      joinable exactly when it is public and has the activity and version. */
  lemma PristineJoinable(sessions: Sessions, k: int, activityId: string, gameVersion: string)
    requires Pristine(sessions) && k in sessions
    ensures Joinable(sessions[k], activityId, gameVersion) <==>
      !sessions[k].private && sessions[k].activityId == activityId && sessions[k].gameVersion == gameVersion
  {
  }

  /** The allocators panic only once i32::MAX sessions are stored. */
  lemma ExhaustedIsHuge(sessions: Sessions)
    requires Exhausted(sessions)
    ensures |sessions| >= I32_MAX
  {
    var ids := IdRange(I32_MAX);
    assert ids <= sessions.Keys;
    assert sessions.Keys == ids + (sessions.Keys - ids);
  }

  /** The ids 0 to n - 1. */
  function IdRange(n: nat): (r: set<int>)
    ensures forall j :: j in r <==> 0 <= j < n
    ensures |r| == n
  {
    if n == 0 then {} else IdRange(n - 1) + {n - 1}
  }

  /** First fit reuses a gap: with ids 0 and 2 in use, the next id is 1. */
  lemma FreeIdReusesGap(x: Instance, y: Instance)
    ensures FreeIdFrom(map[0 := x, 2 := y], 0) == Some(1)
  {
    var s := map[0 := x, 2 := y];
    assert 0 in s && 1 !in s;
  }
}

=== FILE: dispatch.dfy ===
/** The real-time command dispatcher: an exact match on the command path. */
module Dispatch {
  import opened Wrappers
  import opened WsTypes
  import Subscriptions

  const UPDATE_PATH: string := "playerSubscriptions/v1/update"
  const HEARTBEAT_PATH: string := "heartbeat"

  /** `api::execute`: the subscription update is delegated, a heartbeat
      succeeds without effect, any other path is `UnknownPath`. */
  function Execute(req: ApiRequest, caller: int, players: Players): (r: Outcome)
    ensures req.api == UPDATE_PATH ==> r == Subscriptions.Update(req.param, caller, players)
    ensures req.api != UPDATE_PATH ==> r.players == players
    ensures req.api != UPDATE_PATH ==> (r.result.Ok? <==> req.api == HEARTBEAT_PATH)
    ensures req.api != UPDATE_PATH && req.api != HEARTBEAT_PATH ==> r.result == Err(UnknownPath)
  {
    if req.api == UPDATE_PATH then Subscriptions.Update(req.param, caller, players)
    else if req.api == HEARTBEAT_PATH then Outcome(Ok(()), players)
    else Outcome(Err(UnknownPath), players)
  }

  /** Only the exact path string selects a handler: near-misses of the known
      paths (case, a trailing character, another version) are unknown. */
  lemma ExecuteNearMisses(caller: int, players: Players)
    ensures Execute(ApiRequest("Heartbeat", None), caller, players).result == Err(UnknownPath)
    ensures Execute(ApiRequest("heartbeat ", None), caller, players).result == Err(UnknownPath)
    ensures Execute(ApiRequest("playerSubscriptions/v1/update/", None), caller, players).result == Err(UnknownPath)
    ensures Execute(ApiRequest("playerSubscriptions/v2/update", None), caller, players).result == Err(UnknownPath)
  {
    assert "Heartbeat"[0] != HEARTBEAT_PATH[0];
    assert |"heartbeat "| != |HEARTBEAT_PATH|;
    assert |"playerSubscriptions/v1/update/"| != |UPDATE_PATH|;
    assert "playerSubscriptions/v2/update"[21] != UPDATE_PATH[21];
  }

  /** A command either fails and leaves the table as it was, or succeeds;
      only a successful subscription update can change the table. */
  lemma ExecuteChangesOnlyOnUpdate(req: ApiRequest, caller: int, players: Players)
    ensures var r := Execute(req, caller, players);
      && (r.result.Err? ==> r.players == players)
      && (r.players != players ==> req.api == UPDATE_PATH && r.result.Ok? && caller in players)
  {
  }
}

=== FILE: gamesessions.dfy ===
/** The game-session REST handlers `join_random` and `create`: region
    choice, the client view of a session, and the result codes. The random
    activity index, the generated room id, the directory's iteration order,
    the delivery oracle and JSON serialization of the presence update are
    parameters. */
module GameSessions {
  import opened Wrappers
  import opened Decimal
  import opened Photon
  import opened WsTypes
  import Directory
  import Broadcast
  import Auth

  const MSG_UPDATE_PRESENCE: int := 12

  /** `JoinResponse` result codes used by the handlers. */
  const SUCCESS: int := 0
  const NO_SUCH_GAME: int := 1
  const PLAYER_NOT_ONLINE: int := 2

  /** Session id and capacity reported in ad-hoc hosting mode. */
  const AD_HOC_SESSION_ID: int := 567
  const AD_HOC_CAPACITY: int := 40

  /** Region used when the client reports no pings. */
  const FALLBACK_REGION: string := "us"

  datatype RegionPing = RegionPing(regionId: string, ping: int)

  /** `pings[i]` has the smallest ping and no earlier entry ties with it. */
  predicate IsFirstMinimum(pings: seq<RegionPing>, i: nat)
  {
    && i < |pings|
    && (forall j :: 0 <= j < |pings| ==> pings[i].ping <= pings[j].ping)
    && (forall j :: 0 <= j < i ==> pings[i].ping < pings[j].ping)
  }

  /** Rust `min_by` on pings: the running minimum is replaced only by a
      strictly smaller ping, so the first of equal minima is kept. `best` is
      the first minimum of `pings[..i]`. */
  function MinPingFrom(pings: seq<RegionPing>, best: nat, i: nat): (r: nat)
    requires best < i <= |pings|
    requires forall j :: 0 <= j < i ==> pings[best].ping <= pings[j].ping
    requires forall j :: 0 <= j < best ==> pings[best].ping < pings[j].ping
    ensures IsFirstMinimum(pings, r)
    decreases |pings| - i
  {
    if i == |pings| then best
    else MinPingFrom(pings, if pings[i].ping < pings[best].ping then i else best, i + 1)
  }

  /** The preferred region: that of the first lowest ping, else "us". */
  function PreferredRegion(pings: seq<RegionPing>): (region: string)
    ensures |pings| == 0 ==> region == FALLBACK_REGION
    ensures forall i: nat :: IsFirstMinimum(pings, i) ==> region == pings[i].regionId
  {
    if |pings| == 0 then FALLBACK_REGION
    else
      var i := MinPingFrom(pings, 0, 1);
      FirstMinimumUnique(pings, i);
      pings[i].regionId
  }

  lemma FirstMinimumUnique(pings: seq<RegionPing>, i: nat)
    requires IsFirstMinimum(pings, i)
    ensures forall j: nat :: IsFirstMinimum(pings, j) ==> j == i
  {
    forall j: nat | IsFirstMinimum(pings, j) ensures j == i {
      assert pings[i].ping <= pings[j].ping && pings[j].ping <= pings[i].ping;
    }
  }

  /** The client's view of a session (`GameSession`). */
  datatype GameSession = GameSession(
    gameSessionId: int,
    regionId: string,
    roomId: string,
    eventId: Option<int>,
    creatorPlayerId: Option<int>,
    name: string,
    activityLevelId: string,
    private: bool,
    gameInProgress: bool,
    maxCapacity: int,
    isFull: bool)

  /** Rust `u32 as i32`: values from 2^31 up wrap to negatives. */
  function U32AsI32(n: U32): (r: int)
    ensures IsI32(r)
    ensures r % 0x1_0000_0000 == n
  {
    if n <= I32_MAX then n else n - 0x1_0000_0000
  }

  /** `GameSession::from_photon_instance`. */
  function FromPhotonInstance(sessionId: int, inst: Instance, creator: Option<int>): (s: GameSession)
    ensures s.isFull <==> inst.playerCount >= inst.capacity
    ensures inst.capacity <= I32_MAX ==> s.maxCapacity == inst.capacity
    ensures && s.gameSessionId == sessionId && s.regionId == inst.region && s.roomId == inst.photonId
            && s.activityLevelId == inst.activityId && s.private == inst.private
            && s.gameInProgress == inst.inProgress && s.creatorPlayerId == creator
            && s.name == "" && s.eventId.None?
  {
    GameSession(
      gameSessionId := sessionId,
      regionId := inst.region,
      roomId := inst.photonId,
      eventId := None,
      creatorPlayerId := creator,
      name := "",
      activityLevelId := inst.activityId,
      private := inst.private,
      gameInProgress := inst.inProgress,
      maxCapacity := U32AsI32(inst.capacity),
      isFull := inst.playerCount >= inst.capacity)
  }

  /** The session reported in ad-hoc hosting mode; `kind` is "public " for
      `join_random` and "custom " for `create`. */
  function AdHocSession(kind: string, activity: string, region: string): GameSession
  {
    GameSession(
      gameSessionId := AD_HOC_SESSION_ID,
      regionId := region,
      roomId := kind + activity,
      eventId := None,
      creatorPlayerId := None,
      name := "",
      activityLevelId := activity,
      private := false,
      gameInProgress := false,
      maxCapacity := AD_HOC_CAPACITY,
      isFull := false)
  }

  /** The server state the handlers use (`Global`). */
  datatype Global = Global(players: Players, sessions: Sessions, adHocHosting: bool, adHocRegion: string)

  datatype JoinRandomRoomRequest = JoinRandomRoomRequest(
    activityLevelIds: seq<string>, expectedPlayerIds: seq<int>, regionPings: seq<RegionPing>)

  datatype CreateRoomRequest = CreateRoomRequest(
    activityLevelId: string, expectedPlayerIds: seq<int>, regionPings: seq<RegionPing>)

  datatype JoinResponse = JoinResponse(result: int, gameSession: Option<GameSession>)

  /** The presence message announcing the caller's session. */
  datatype PresenceUpdate = PresenceUpdate(playerId: int, isOnline: bool, gameSession: GameSession)

  /** A handler's effect: the response (`None` when the handler panics), the
      state afterwards and the presence fan-out, if one was attempted. */
  datatype Reply = Reply(response: Option<JoinResponse>, global: Global, fanout: Option<Broadcast.Fanout>)

  /** Announce `session` to the caller's subscribers and answer by the
      outcome: success with the session, or "player not online" without. */
  function Announce(g: Global, player: Auth.Player, session: GameSession, ready: set<int>,
                    encode: PresenceUpdate -> string): (r: Reply)
    ensures r.global == g && r.fanout.Some?
    ensures r.fanout.value.frame == Broadcast.Envelope(MSG_UPDATE_PRESENCE, encode(PresenceUpdate(player.accountId, true, session)))
    ensures r.response == Some(JoinResponse(SUCCESS, Some(session))) <==> r.fanout.value.status == Broadcast.Delivered
    ensures r.response == Some(JoinResponse(PLAYER_NOT_ONLINE, None)) <==> r.fanout.value.status.SendFailed?
    ensures r.response.None? <==> r.fanout.value.status == Broadcast.Panicked
  {
    var update := PresenceUpdate(player.accountId, true, session);
    var f := Broadcast.Broadcast(g.players, MSG_UPDATE_PRESENCE, encode(update), player.accountId, ready);
    match f.status
    case Delivered => Reply(Some(JoinResponse(SUCCESS, Some(session))), g, Some(f))
    case SendFailed(_) => Reply(Some(JoinResponse(PLAYER_NOT_ONLINE, None)), g, Some(f))
    case Panicked => Reply(None, g, Some(f))
  }

  /** A session chosen for the caller, with the directory afterwards. */
  datatype Placement = Placement(sessions: Sessions, session: GameSession)

  /** The session part of `join_random` for the chosen activity: the
      ad-hoc session, or reserve-or-create in the preferred region
      (`None` when the directory has no free id and the server panics). */
  function JoinRandomSession(g: Global, player: Auth.Player, activity: string, pings: seq<RegionPing>,
                             photonId: string, order: seq<int>): (r: Option<Placement>)
    requires Directory.Enumerates(order, g.sessions)
    ensures r.Some? ==> r.value.session.activityLevelId == activity && r.value.session.creatorPlayerId.None?
    ensures r.None? ==> !g.adHocHosting && Directory.Exhausted(g.sessions)
  {
    if g.adHocHosting then Some(Placement(g.sessions, AdHocSession("public ", activity, g.adHocRegion)))
    else
      match Directory.Reserve(g.sessions, order, activity, player.gameVer, PreferredRegion(pings), photonId)
      case None => None
      case Some(a) => Some(Placement(a.sessions, FromPhotonInstance(a.id, a.instance, None)))
  }

  /** `join_random`. `idx` is the random pick among the activity ids,
      `photonId` the generated room id and `order` the directory's iteration
      order. */
  function JoinRandom(g: Global, player: Auth.Player, req: JoinRandomRoomRequest, idx: nat, photonId: string,
                      order: seq<int>, ready: set<int>, encode: PresenceUpdate -> string): (r: Reply)
    requires |req.activityLevelIds| == 0 || idx < |req.activityLevelIds|
    requires Directory.Enumerates(order, g.sessions)
    ensures |req.activityLevelIds| == 0 ==> r == Reply(Some(JoinResponse(NO_SUCH_GAME, None)), g, None)
    ensures r.global.players == g.players && r.global.adHocHosting == g.adHocHosting
    ensures g.adHocHosting ==> r.global == g
    ensures r.response.Some? && r.response.value.gameSession.Some? ==>
      && r.response.value.result == SUCCESS
      && r.response.value.gameSession.value.activityLevelId in req.activityLevelIds
      && r.response.value.gameSession.value.creatorPlayerId.None?
    ensures r.response.Some? && r.response.value.gameSession.Some? ==>
      r.fanout.Some? && r.fanout.value.frame == Broadcast.Envelope(MSG_UPDATE_PRESENCE,
        encode(PresenceUpdate(player.accountId, true, r.response.value.gameSession.value)))
  {
    if |req.activityLevelIds| == 0 then Reply(Some(JoinResponse(NO_SUCH_GAME, None)), g, None)
    else
      match JoinRandomSession(g, player, req.activityLevelIds[idx], req.regionPings, photonId, order)
      case None => Reply(None, g, None)
      case Some(p) => Announce(g.(sessions := p.sessions), player, p.session, ready, encode)
  }

  /** The session part of `create`: the ad-hoc session (no creator), or a new
      public session in the preferred region created by the caller. */
  function CreateSession(g: Global, player: Auth.Player, req: CreateRoomRequest, photonId: string): (r: Option<Placement>)
    ensures r.Some? ==> r.value.session.activityLevelId == req.activityLevelId && !r.value.session.private
    ensures r.None? <==> !g.adHocHosting && Directory.Exhausted(g.sessions)
  {
    var region := PreferredRegion(req.regionPings);
    if g.adHocHosting then Some(Placement(g.sessions, AdHocSession("custom ", req.activityLevelId, g.adHocRegion)))
    else
      match Directory.Create(g.sessions, req.activityLevelId, player.gameVer, region, false, photonId)
      case None => None
      case Some(a) => Some(Placement(a.sessions, FromPhotonInstance(a.id, a.instance, Some(player.accountId))))
  }

  /** `create`. */
  function Create(g: Global, player: Auth.Player, req: CreateRoomRequest, photonId: string,
                  ready: set<int>, encode: PresenceUpdate -> string): (r: Reply)
    ensures r.global.players == g.players && r.global.adHocHosting == g.adHocHosting
    ensures g.adHocHosting ==> r.global == g
    ensures r.response.Some? && r.response.value.gameSession.Some? ==>
      && r.response.value.result == SUCCESS
      && r.response.value.gameSession.value.activityLevelId == req.activityLevelId
      && !r.response.value.gameSession.value.private
      && r.response.value.gameSession.value.creatorPlayerId == (if g.adHocHosting then None else Some(player.accountId))
    ensures r.response.Some? && r.response.value.gameSession.Some? ==>
      r.fanout.Some? && r.fanout.value.frame == Broadcast.Envelope(MSG_UPDATE_PRESENCE,
        encode(PresenceUpdate(player.accountId, true, r.response.value.gameSession.value)))
  {
    match CreateSession(g, player, req, photonId)
    case None => Reply(None, g, None)
    case Some(p) => Announce(g.(sessions := p.sessions), player, p.session, ready, encode)
  }

  /** The result codes of `join_random` for a non-empty request: success
      with the session exactly when every subscriber got the presence
      update, "player not online" without a session exactly when a send
      failed; the handler panics when ids run out or the fan-out hits an
      unregistered account. */
  lemma JoinRandomResultCodes(g: Global, player: Auth.Player, req: JoinRandomRoomRequest, idx: nat, photonId: string,
                              order: seq<int>, ready: set<int>, encode: PresenceUpdate -> string)
    requires idx < |req.activityLevelIds|
    requires Directory.Enumerates(order, g.sessions)
    ensures var r := JoinRandom(g, player, req, idx, photonId, order, ready, encode);
      && (r.fanout.Some? && r.fanout.value.status == Broadcast.Delivered <==>
          r.response.Some? && r.response.value.result == SUCCESS && r.response.value.gameSession.Some?)
      && (r.fanout.Some? && r.fanout.value.status.SendFailed? <==>
          r.response == Some(JoinResponse(PLAYER_NOT_ONLINE, None)))
      && (r.response.None? <==>
          r.fanout.None? || r.fanout.value.status == Broadcast.Panicked)
      && (r.fanout.None? ==> !g.adHocHosting && Directory.Exhausted(g.sessions))
  {
  }

  /** Outside ad-hoc mode `join_random` stores exactly the directory that
      reserve-or-create returns for the picked activity and announces the
      session it handed out; when reserve-or-create finds no id the handler
      panics before any change or fan-out. */
  lemma JoinRandomStoresReserve(g: Global, player: Auth.Player, req: JoinRandomRoomRequest, idx: nat, photonId: string,
                                order: seq<int>, ready: set<int>, encode: PresenceUpdate -> string)
    requires idx < |req.activityLevelIds|
    requires Directory.Enumerates(order, g.sessions)
    requires !g.adHocHosting
    ensures var a := Directory.Reserve(g.sessions, order, req.activityLevelIds[idx], player.gameVer,
                                       PreferredRegion(req.regionPings), photonId);
      var r := JoinRandom(g, player, req, idx, photonId, order, ready, encode);
      && (a.None? <==> r.fanout.None?)
      && (a.None? ==> r.global == g && r.response.None?)
      && (a.Some? ==>
          && r.global == g.(sessions := a.value.sessions)
          && r.fanout.value.frame == Broadcast.Envelope(MSG_UPDATE_PRESENCE,
               encode(PresenceUpdate(player.accountId, true, FromPhotonInstance(a.value.id, a.value.instance, None))))
          && (r.response.Some? && r.response.value.gameSession.Some? ==>
              r.response.value.gameSession.value == FromPhotonInstance(a.value.id, a.value.instance, None)))
  {
  }

  /** Outside ad-hoc mode `create` stores exactly the directory that
      `create_photon_instance` returns, and the session it announces and
      answers with is the created entry with the caller as creator. */
  lemma CreateStoresSession(g: Global, player: Auth.Player, req: CreateRoomRequest, photonId: string,
                            ready: set<int>, encode: PresenceUpdate -> string)
    requires !g.adHocHosting
    requires Directory.Create(g.sessions, req.activityLevelId, player.gameVer,
                              PreferredRegion(req.regionPings), false, photonId).Some?
    ensures var c := Directory.Create(g.sessions, req.activityLevelId, player.gameVer,
                                      PreferredRegion(req.regionPings), false, photonId).value;
      var s := FromPhotonInstance(c.id, c.instance, Some(player.accountId));
      var r := Create(g, player, req, photonId, ready, encode);
      && r.global == g.(sessions := c.sessions)
      && r.fanout.Some?
      && r.fanout.value.frame == Broadcast.Envelope(MSG_UPDATE_PRESENCE, encode(PresenceUpdate(player.accountId, true, s)))
      && (r.response.Some? && r.response.value.gameSession.Some? ==> r.response.value.gameSession.value == s)
  {
    var c := Directory.Create(g.sessions, req.activityLevelId, player.gameVer,
                              PreferredRegion(req.regionPings), false, photonId).value;
    assert CreateSession(g, player, req, photonId) ==
      Some(Placement(c.sessions, FromPhotonInstance(c.id, c.instance, Some(player.accountId))));
  }

  /** The result codes of `create`: success with the session exactly when
      every subscriber got the presence update, "player not online" without
      a session exactly when a send failed; the handler panics when ids run
      out or the fan-out hits an unregistered account. */
  lemma CreateResultCodes(g: Global, player: Auth.Player, req: CreateRoomRequest, photonId: string,
                          ready: set<int>, encode: PresenceUpdate -> string)
    ensures var r := Create(g, player, req, photonId, ready, encode);
      && (r.fanout.Some? && r.fanout.value.status == Broadcast.Delivered <==>
          r.response.Some? && r.response.value.result == SUCCESS && r.response.value.gameSession.Some?)
      && (r.fanout.Some? && r.fanout.value.status.SendFailed? <==>
          r.response == Some(JoinResponse(PLAYER_NOT_ONLINE, None)))
      && (r.response.None? <==>
          r.fanout.None? || r.fanout.value.status == Broadcast.Panicked)
      && (r.fanout.None? <==> !g.adHocHosting && Directory.Exhausted(g.sessions))
  {
  }

  /** A connected caller in a well-formed registry always gets an answer
      from `join_random` while session ids remain. */
  lemma JoinRandomAnswers(g: Global, player: Auth.Player, req: JoinRandomRoomRequest, idx: nat, photonId: string,
                          order: seq<int>, ready: set<int>, encode: PresenceUpdate -> string)
    requires |req.activityLevelIds| == 0 || idx < |req.activityLevelIds|
    requires Directory.Enumerates(order, g.sessions)
    requires WellFormed(g.players) && player.accountId in g.players
    requires !Directory.Exhausted(g.sessions)
    ensures JoinRandom(g, player, req, idx, photonId, order, ready, encode).response.Some?
  {
    if |req.activityLevelIds| > 0 {
      var p := JoinRandomSession(g, player, req.activityLevelIds[idx], req.regionPings, photonId, order).value;
      Broadcast.WellFormedBroadcastNeverPanics(g.players, MSG_UPDATE_PRESENCE,
        encode(PresenceUpdate(player.accountId, true, p.session)), player.accountId, ready);
    }
  }

  /** In ad-hoc mode `join_random` leaves the directory alone and announces
      session 567 in the configured region, named "public <activity>", for
      40 players, not full. */
  lemma JoinRandomAdHoc(g: Global, player: Auth.Player, req: JoinRandomRoomRequest, idx: nat, photonId: string,
                        order: seq<int>, ready: set<int>, encode: PresenceUpdate -> string)
    requires g.adHocHosting && idx < |req.activityLevelIds|
    requires Directory.Enumerates(order, g.sessions)
    ensures var r := JoinRandom(g, player, req, idx, photonId, order, ready, encode);
      && r.global == g
      && (r.response.Some? && r.response.value.gameSession.Some? ==>
          var s := r.response.value.gameSession.value;
          && s.gameSessionId == AD_HOC_SESSION_ID
          && s.regionId == g.adHocRegion
          && s.roomId == "public " + req.activityLevelIds[idx]
          && s.maxCapacity == 40
          && !s.isFull && !s.private && s.creatorPlayerId.None?)
  {
  }

  /** In ad-hoc mode `create` likewise announces session 567, named
      "custom <activity>", with no creator. */
  lemma CreateAdHoc(g: Global, player: Auth.Player, req: CreateRoomRequest, photonId: string,
                    ready: set<int>, encode: PresenceUpdate -> string)
    requires g.adHocHosting
    ensures var r := Create(g, player, req, photonId, ready, encode);
      && r.global == g
      && (r.response.Some? && r.response.value.gameSession.Some? ==>
          var s := r.response.value.gameSession.value;
          && s.gameSessionId == AD_HOC_SESSION_ID
          && s.regionId == g.adHocRegion
          && s.roomId == "custom " + req.activityLevelId
          && s.maxCapacity == 40
          && s.creatorPlayerId.None?)
  {
  }

  /** Outside ad-hoc mode the session `join_random` reports is the one stored
      in the directory under the reported id, seen through the projection;
      in a directory of untouched sessions it is never full and holds 40. */
  lemma JoinRandomReportsStoredSession(g: Global, player: Auth.Player, activity: string, pings: seq<RegionPing>,
                                       photonId: string, order: seq<int>)
    requires !g.adHocHosting && Directory.Enumerates(order, g.sessions)
    requires JoinRandomSession(g, player, activity, pings, photonId, order).Some?
    ensures var p := JoinRandomSession(g, player, activity, pings, photonId, order).value;
      var s := p.session;
      && s.gameSessionId in p.sessions
      && var stored := p.sessions[s.gameSessionId];
      && s.regionId == stored.region
      && s.roomId == stored.photonId
      && s.activityLevelId == stored.activityId == activity
      && stored.gameVersion == player.gameVer
      && s.private == stored.private == false
      && s.gameInProgress == stored.inProgress
      && (Directory.Pristine(g.sessions) ==> !s.isFull && s.maxCapacity == 40)
  {
    var a := Directory.Reserve(g.sessions, order, activity, player.gameVer, PreferredRegion(pings), photonId).value;
    if Directory.Pristine(g.sessions) {
      Directory.ReserveKeepsPristine(g.sessions, order, activity, player.gameVer, PreferredRegion(pings), photonId);
    }
  }

  /** Outside ad-hoc mode `create` always adds one session, public, in the
      preferred region, whatever the fan-out does, and reports the caller as
      its creator. */
  lemma CreateAddsSession(g: Global, player: Auth.Player, req: CreateRoomRequest, photonId: string,
                          ready: set<int>, encode: PresenceUpdate -> string)
    requires !g.adHocHosting && !Directory.Exhausted(g.sessions)
    ensures var r := Create(g, player, req, photonId, ready, encode);
      var p := CreateSession(g, player, req, photonId);
      && p.Some?
      && r.global.sessions == p.value.sessions
      && p.value.session.gameSessionId !in g.sessions
      && r.global.sessions.Keys == g.sessions.Keys + {p.value.session.gameSessionId}
      && (forall k :: k in g.sessions ==> r.global.sessions[k] == g.sessions[k])
      && p.value.session.creatorPlayerId == Some(player.accountId)
      && p.value.session.regionId == PreferredRegion(req.regionPings)
      && !r.global.sessions[p.value.session.gameSessionId].private
      && r.fanout.Some?
      && r.fanout.value.frame == Broadcast.Envelope(MSG_UPDATE_PRESENCE,
           encode(PresenceUpdate(player.accountId, true, p.value.session)))
      && (r.response.Some? && r.response.value.gameSession.Some? ==> r.response.value.gameSession.value == p.value.session)
  {
  }
}

=== FILE: json.dfy ===
/** An abstract JSON document (serde_json `Value`) and the few typed reads
    the server performs on it. Lexing JSON text is not modelled: a frame's text
    is represented by the document it parses to. */
module Json {
  import opened Wrappers
  import opened Decimal

  /** A parsed JSON document. `Int` is a number literal without fraction or
      exponent, other than `-0`; `Fraction` stands for every other number
      literal, including `-0`, which serde_json reads as the float -0.0 and
      which a `Vec<i32>` therefore refuses. An object is a map, so repeated
      member names are not representable. */
  datatype Value =
    | Null
    | Bool(b: bool)
    | Int(n: int)
    | Fraction
    | Str(s: string)
    | Array(items: seq<Value>)
    | Object(members: map<string, Value>)

  /** Member `name` of an object; `None` when missing or not an object. */
  function Member(v: Value, name: string): Option<Value>
  {
    if v.Object? && name in v.members then Some(v.members[name]) else None
  }

  /** serde's `Vec<i32>`: an array whose every element is an integer literal
      in the 32-bit range. */
  function AsI32s(v: Value): (r: Option<seq<int>>)
    ensures r.Some? ==> v.Array? && |r.value| == |v.items|
    ensures r.Some? ==> forall i :: 0 <= i < |r.value| ==> v.items[i] == Int(r.value[i]) && IsI32(r.value[i])
    ensures r.Some? ==> v == I32Array(r.value)
  {
    if !v.Array? then None
    else
      var items := I32Items(v.items);
      if items.Some? then
        assert v.items == I32Array(items.value).items;
        items
      else items
  }

  function I32Items(items: seq<Value>): (r: Option<seq<int>>)
    ensures r.Some? ==> |r.value| == |items|
    ensures r.Some? ==> forall i :: 0 <= i < |r.value| ==> items[i] == Int(r.value[i]) && IsI32(r.value[i])
    ensures r.None? ==> exists i :: 0 <= i < |items| && !(items[i].Int? && IsI32(items[i].n))
  {
    if |items| == 0 then Some([])
    else if !(items[0].Int? && IsI32(items[0].n)) then None
    else match I32Items(items[1..])
      case None => None
      case Some(rest) => Some([items[0].n] + rest)
  }

  /** The JSON array serde writes for a `Vec<i32>`. */
  function I32Array(xs: seq<int>): (v: Value)
  {
    Array(seq(|xs|, i requires 0 <= i < |xs| => Int(xs[i])))
  }

  /** Reading back an array of 32-bit integers gives the same list. */
  lemma ReadI32Array(xs: seq<int>)
    requires forall i :: 0 <= i < |xs| ==> IsI32(xs[i])
    ensures AsI32s(I32Array(xs)) == Some(xs)
  {
    var items := I32Array(xs).items;
    var r := I32Items(items);
    assert r.Some?;
    assert r.value == xs;
  }
}

=== FILE: photon.dfy ===
/** The session record kept by the game-session directory. */
module Photon {

  /** Rust `u32`. */
  type U32 = n: int | 0 <= n < 0x1_0000_0000

  /** One game session ("instance"). `photonId` is the external room id. */
  datatype Instance = Instance(
    region: string,
    photonId: string,
    activityId: string,
    inProgress: bool,
    gameVersion: string,
    private: bool,
    playerCount: U32,
    capacity: U32)

  /** The directory: session id to session (`InstanceMap`). */
  type Sessions = map<int, Instance>
}

=== FILE: scenarios.dfy ===
/** Worked scenarios that combine the registry, the subscription command, the
    fan-out and the session directory. */
module Scenarios {
  import opened Wrappers
  import opened Json
  import opened WsTypes
  import opened Photon
  import Subscriptions
  import Dispatch
  import Connection
  import Broadcast
  import Directory

  /** The `param` object of a subscription update. */
  function UpdateParams(ids: seq<int>): Value
  {
    Object(map["PlayerIds" := I32Array(ids)])
  }

  /** A text frame carrying `{"api":"playerSubscriptions/v1/update","param":{"PlayerIds":ids}}`. */
  function UpdateFrame(ids: seq<int>): Message
  {
    Text(Some(EncodeApiRequest(ApiRequest(Dispatch.UPDATE_PATH, Some(UpdateParams(ids))))))
  }

  /** Accounts 42 and 7 are connected, nobody subscribes to anybody. */
  function TwoPlayers(): Players
  {
    Connection.Register(Connection.Register(map[], 42, "1.0"), 7, "1.0")
  }

  lemma DecodeUpdateFrame(ids: seq<int>)
    requires forall i :: 0 <= i < |ids| ==> Decimal.IsI32(ids[i])
    ensures UpdateFrame(ids).json.Some?
    ensures DecodeApiRequest(UpdateFrame(ids).json.value) == Some(ApiRequest(Dispatch.UPDATE_PATH, Some(UpdateParams(ids))))
    ensures Subscriptions.DecodeUpdateParams(UpdateParams(ids)) == Some(ids)
  {
    DecodeEncodeApiRequest(ApiRequest(Dispatch.UPDATE_PATH, Some(UpdateParams(ids))));
    ReadI32Array(ids);
  }

  /** An update command carrying 32-bit ids is executed for a connected
      caller exactly as the table walk of `Subscriptions.Resubscribe`, and
      leaves the table alone for an unknown caller. */
  lemma UpdateFrameApplies(players: Players, caller: int, ids: seq<int>)
    requires forall i :: 0 <= i < |ids| ==> Decimal.IsI32(ids[i])
    ensures Connection.HandleIncoming(players, caller, UpdateFrame(ids)) ==
      (if caller in players then Subscriptions.Resubscribe(players, caller, ids) else players)
  {
    DecodeUpdateFrame(ids);
  }

  /** Account 7 follows 42: 42's subscriber list becomes [7], so a presence
      broadcast for 42 reaches connection 7, while one for the unconnected
      account 99 panics before sending anything. */
  lemma FollowScenario(payload: string)
    ensures var p := Connection.HandleIncoming(TwoPlayers(), 7, UpdateFrame([42]));
      && p.Keys == {42, 7}
      && p[42].subbedBy == [7]
      && p[7].subbedBy == []
      && Broadcast.Broadcast(p, 12, payload, 42, {7}) == Broadcast.Fanout(Broadcast.Envelope(12, payload), [7], Broadcast.Delivered)
      && Broadcast.Broadcast(p, 12, payload, 42, {}).status == Broadcast.SendFailed(7)
      && Broadcast.Broadcast(p, 12, payload, 99, {7}).status == Broadcast.Panicked
  {
    DecodeUpdateFrame([42]);
    var p := Connection.HandleIncoming(TwoPlayers(), 7, UpdateFrame([42]));
    assert p == Subscriptions.Resubscribe(TwoPlayers(), 7, [42]);
    assert p[42].subbedBy == [] + [7];
  }

  /** The command `PlayerIds: [7]` from account 7 makes 7 follow itself: 7's
      own list becomes [7] and 42's list stays empty. */
  lemma SelfFollowScenario()
    ensures var p := Connection.HandleIncoming(TwoPlayers(), 7, UpdateFrame([7]));
      && p[7].subbedBy == [7]
      && p[42].subbedBy == []
  {
    DecodeUpdateFrame([7]);
    var p := Connection.HandleIncoming(TwoPlayers(), 7, UpdateFrame([7]));
    assert p == Subscriptions.Resubscribe(TwoPlayers(), 7, [7]);
    assert p[7].subbedBy == [] + [7];
  }

  /** When 7 disconnects after following 42, 42 has no subscribers left, and
      a broadcast for 7 panics because 7 is no longer in the table. */
  lemma DisconnectScenario(payload: string)
    ensures var p := Connection.Disconnect(Connection.HandleIncoming(TwoPlayers(), 7, UpdateFrame([42])), 7);
      && p.Keys == {42}
      && p[42].subbedBy == []
      && Broadcast.Broadcast(p, 12, payload, 42, {}).status == Broadcast.Delivered
      && Broadcast.Broadcast(p, 12, payload, 7, {7, 42}).status == Broadcast.Panicked
  {
    FollowScenario(payload);
    var q := Connection.HandleIncoming(TwoPlayers(), 7, UpdateFrame([42]));
    var p := Connection.Disconnect(q, 7);
    assert p[42].subbedBy == Seqs.Without([7], 7);
    assert Seqs.Without([7], 7) == [];
  }

  /** Two `create` calls for charades in region eu give two sessions with
      different ids, both in eu, empty, with capacity 40. */
  lemma TwoCreatesScenario(sessions: Sessions, id1: string, id2: string)
    requires !Directory.Exhausted(sessions)
    ensures var a := Directory.Create(sessions, "charades", "1.0", "eu", false, id1);
      && a.Some?
      && var b := Directory.Create(a.value.sessions, "charades", "1.0", "eu", false, id2);
      && (b.Some? ==>
          && a.value.id != b.value.id
          && a.value.sessions[a.value.id] == b.value.sessions[a.value.id]
          && b.value.instance.region == a.value.instance.region == "eu"
          && b.value.instance.capacity == a.value.instance.capacity == 40
          && b.value.instance.playerCount == a.value.instance.playerCount == 0
          && b.value.instance.photonId == id2 && a.value.instance.photonId == id1)
  {
  }

  /** From an empty directory the two sessions get ids 0 and 1. */
  lemma TwoCreatesFromEmpty(id1: string, id2: string)
    ensures var a := Directory.Create(map[], "charades", "1.0", "eu", false, id1);
      && a.Some? && a.value.id == 0
      && var b := Directory.Create(a.value.sessions, "charades", "1.0", "eu", false, id2);
      && b.Some? && b.value.id == 1
  {
    var empty: Sessions := map[];
    var a := Directory.Create(empty, "charades", "1.0", "eu", false, id1);
    assert !Directory.Exhausted(empty) by {
      assert 0 !in empty;
    }
    assert !Directory.Exhausted(a.value.sessions) by {
      assert 1 !in a.value.sessions;
    }
  }
}

=== FILE: seqs.dfy ===
/** Sequence helpers: occurrence counts (of ids and of characters) and the
    subscriber-list filter (`Vec<i32>::retain` in the server). */
module Seqs {

  /** Number of occurrences of `x` in `s`. */
  function Count<T(==)>(s: seq<T>, x: T): nat
  {
    if |s| == 0 then 0 else (if s[0] == x then 1 else 0) + Count(s[1..], x)
  }

  /** `s` with every occurrence of `x` dropped, the rest in order
      (Rust `Vec::retain(|e| *e != x)`). */
  function Without(s: seq<int>, x: int): (r: seq<int>)
    ensures forall y :: y in r <==> y in s && y != x
    ensures |r| + Count(s, x) == |s|
  {
    if |s| == 0 then [] else (if s[0] == x then [] else [s[0]]) + Without(s[1..], x)
  }

  /** No element occurs twice. */
  predicate NoDup(s: seq<int>)
  {
    forall i, j :: 0 <= i < j < |s| ==> s[i] != s[j]
  }

  lemma {:induction false} CountAppend(a: seq<int>, b: seq<int>, x: int)
    ensures Count(a + b, x) == Count(a, x) + Count(b, x)
  {
    if |a| == 0 {
      assert a + b == b;
    } else {
      assert (a + b)[1..] == a[1..] + b;
      CountAppend(a[1..], b, x);
    }
  }

  lemma {:induction false} CountPositive(s: seq<int>, x: int)
    ensures Count(s, x) > 0 <==> x in s
  {
    if |s| > 0 {
      CountPositive(s[1..], x);
      assert s == [s[0]] + s[1..];
    }
  }

  /** Dropping `x` leaves no `x` and every other element's count unchanged. */
  lemma {:induction false} CountWithout(s: seq<int>, x: int, y: int)
    ensures Count(Without(s, x), y) == if y == x then 0 else Count(s, y)
  {
    if |s| > 0 {
      CountWithout(s[1..], x, y);
      CountAppend(if s[0] == x then [] else [s[0]], Without(s[1..], x), y);
    }
  }

  /** `Without` changes nothing when `x` is absent. */
  lemma {:induction false} WithoutAbsent(s: seq<int>, x: int)
    requires x !in s
    ensures Without(s, x) == s
  {
    if |s| > 0 {
      assert x !in s[1..] by {
        forall y | y in s[1..] ensures y != x {
          assert y in s;
        }
      }
      WithoutAbsent(s[1..], x);
      assert s == [s[0]] + s[1..];
    }
  }

  lemma {:induction false} WithoutAppend(a: seq<int>, b: seq<int>, x: int)
    ensures Without(a + b, x) == Without(a, x) + Without(b, x)
  {
    if |a| == 0 {
      assert a + b == b;
    } else {
      var h := if a[0] == x then [] else [a[0]];
      assert (a + b)[0] == a[0] && (a + b)[1..] == a[1..] + b;
      WithoutAppend(a[1..], b, x);
      assert Without(a + b, x) == h + (Without(a[1..], x) + Without(b, x));
      assert Without(a, x) == h + Without(a[1..], x);
    }
  }

  /** A list holds no duplicates exactly when every value occurs at most once. */
  lemma {:induction false} NoDupByCount(s: seq<int>)
    ensures NoDup(s) <==> forall y :: Count(s, y) <= 1
  {
    if |s| > 0 {
      NoDupByCount(s[1..]);
      CountPositive(s[1..], s[0]);
      if NoDup(s) {
        assert NoDup(s[1..]);
        assert s[0] !in s[1..];
        forall y ensures Count(s, y) <= 1 {
          assert Count(s[1..], y) <= 1;
        }
      } else {
        var i, j :| 0 <= i < j < |s| && s[i] == s[j];
        if i == 0 {
          assert s[j] in s[1..];
          assert Count(s, s[0]) >= 2;
        } else {
          assert !NoDup(s[1..]) by { assert s[1..][i - 1] == s[1..][j - 1]; }
          var z :| Count(s[1..], z) > 1;
          assert Count(s, z) > 1;
        }
      }
    }
  }
}

=== FILE: subscriptions.dfy ===
/** `playerSubscriptions/v1/update`: the caller replaces the set of accounts
    it follows. Applied to the whole table as one atomic step. */
module Subscriptions {
  import opened Wrappers
  import opened Seqs
  import opened Json
  import opened Decimal
  import opened WsTypes

  /** serde reading of `UpdateParams`: a member `PlayerIds` holding an array
      of 32-bit integers. */
  function DecodeUpdateParams(v: Value): (r: Option<seq<int>>)
    ensures r.Some? ==> Member(v, "PlayerIds") == Some(I32Array(r.value))
    ensures r.Some? ==> forall i :: 0 <= i < |r.value| ==> IsI32(r.value[i])
    ensures Member(v, "PlayerIds").None? ==> r.None?
  {
    match Member(v, "PlayerIds")
    case None => None
    case Some(ids) => AsI32s(ids)
  }

  /** The table walk: every entry drops the caller from its subscriber list,
      and an entry whose key is among `ids` then gets the caller appended. */
  function Resubscribe(players: Players, caller: int, ids: seq<int>): (r: Players)
    ensures r.Keys == players.Keys
  {
    map k | k in players ::
      players[k].(subbedBy := Without(players[k].subbedBy, caller) + (if k in ids then [caller] else []))
  }

  /** `sub::v1::update`: parameter errors first (missing, then malformed),
      then the caller check, then the table walk. */
  function Update(param: Option<Value>, caller: int, players: Players): (r: Outcome)
    ensures r.result.Err? ==> r.players == players
    ensures r.result == Err(NoParams) <==> param.None?
    ensures r.result == Err(InvalidParams) <==> param.Some? && DecodeUpdateParams(param.value).None?
    ensures r.result == Err(CallerNotFound) <==>
      param.Some? && DecodeUpdateParams(param.value).Some? && caller !in players
    ensures r.result.Ok? ==> r.players == Resubscribe(players, caller, DecodeUpdateParams(param.value).value)
  {
    match param
    case None => Outcome(Err(NoParams), players)
    case Some(v) =>
      match DecodeUpdateParams(v)
      case None => Outcome(Err(InvalidParams), players)
      case Some(ids) =>
        if caller !in players then Outcome(Err(CallerNotFound), players)
        else Outcome(Ok(()), Resubscribe(players, caller, ids))
  }

  /** After the walk the caller follows exactly the connected accounts in
      `ids`: it occurs once in the list of each of them and nowhere else,
      however often an id is repeated. Everybody else keeps their place in
      every list, and no account's version changes. */
  lemma ResubscribeOverwrites(players: Players, caller: int, ids: seq<int>, k: int)
    requires k in players
    ensures var r := Resubscribe(players, caller, ids);
      && Count(r[k].subbedBy, caller) == (if k in ids then 1 else 0)
      && Without(r[k].subbedBy, caller) == Without(players[k].subbedBy, caller)
      && r[k].gameVersion == players[k].gameVersion
  {
    var s := players[k].subbedBy;
    var tail: seq<int> := if k in ids then [caller] else [];
    CountAppend(Without(s, caller), tail, caller);
    CountWithout(s, caller, caller);
    WithoutAppend(Without(s, caller), tail, caller);
    WithoutTwice(s, caller);
    assert Without(tail, caller) == [];
    assert Without(s, caller) + [] == Without(s, caller);
  }

  lemma WithoutTwice(s: seq<int>, x: int)
    ensures Without(Without(s, x), x) == Without(s, x)
  {
    WithoutAbsent(Without(s, x), x);
  }

  /** Overwrite, not union: a second update by the same caller erases every
      trace of the first. */
  lemma {:induction false} ResubscribeLatestWins(players: Players, caller: int, ids1: seq<int>, ids2: seq<int>)
    ensures Resubscribe(Resubscribe(players, caller, ids1), caller, ids2) == Resubscribe(players, caller, ids2)
  {
    var mid := Resubscribe(players, caller, ids1);
    var lhs := Resubscribe(mid, caller, ids2);
    var rhs := Resubscribe(players, caller, ids2);
    forall k | k in players ensures lhs[k] == rhs[k] {
      var s := players[k].subbedBy;
      var tail: seq<int> := if k in ids1 then [caller] else [];
      WithoutAppend(Without(s, caller), tail, caller);
      WithoutTwice(s, caller);
      assert Without(tail, caller) == [];
      assert Without(s, caller) + [] == Without(s, caller);
    }
  }

  /** Only registered ids matter: two id lists naming the same connected
      accounts, in any order and with any repetitions or unknown ids, give
      the same table. */
  lemma ResubscribeIgnoresUnknownIds(players: Players, caller: int, ids1: seq<int>, ids2: seq<int>)
    requires forall k :: k in players ==> (k in ids1 <==> k in ids2)
    ensures Resubscribe(players, caller, ids1) == Resubscribe(players, caller, ids2)
  {
    var r1 := Resubscribe(players, caller, ids1);
    var r2 := Resubscribe(players, caller, ids2);
    forall k | k in players ensures r1[k] == r2[k] {
      assert (k in ids1) == (k in ids2);
    }
  }

  /** Applying the same update twice leaves the table as applying it once. */
  lemma UpdateIdempotent(param: Option<Value>, caller: int, players: Players)
    ensures var once := Update(param, caller, players);
      Update(param, caller, once.players) == once
  {
    var once := Update(param, caller, players);
    if once.result.Ok? {
      ResubscribeLatestWins(players, caller, DecodeUpdateParams(param.value).value, DecodeUpdateParams(param.value).value);
    }
  }

  /** The walk keeps the registry invariant, because the only value it adds
      is the caller, which is connected. */
  lemma ResubscribeKeepsWellFormed(players: Players, caller: int, ids: seq<int>)
    requires WellFormed(players) && caller in players
    ensures WellFormed(Resubscribe(players, caller, ids))
  {
    var r := Resubscribe(players, caller, ids);
    forall k | k in r ensures SubscribersOk(r, r[k].subbedBy) {
      var s := players[k].subbedBy;
      var w := Without(s, caller);
      var tail: seq<int> := if k in ids then [caller] else [];
      assert r[k].subbedBy == w + tail;
      forall i | 0 <= i < |w + tail| ensures (w + tail)[i] in r {
        if i < |w| {
          assert w[i] in w;
        }
      }
      NoDupByCount(s);
      NoDupByCount(w + tail);
      forall y ensures Count(w + tail, y) <= 1 {
        CountAppend(w, tail, y);
        CountWithout(s, caller, y);
      }
    }
  }

  /** Errors and the caller check: an update from an unregistered caller
      with well-formed parameters changes nothing. */
  lemma UpdateUnknownCaller(ids: seq<int>, caller: int, players: Players)
    requires caller !in players
    requires forall i :: 0 <= i < |ids| ==> Decimal.IsI32(ids[i])
    ensures Update(Some(Object(map["PlayerIds" := I32Array(ids)])), caller, players)
            == Outcome(Err(CallerNotFound), players)
  {
    ReadI32Array(ids);
    assert DecodeUpdateParams(Object(map["PlayerIds" := I32Array(ids)])) == Some(ids);
  }
}

=== FILE: text.dfy ===
/** Rust `str::split` on a single character, with its inverse `Join`. */
module Text {
  import opened Seqs

  /** The pieces of `s` between occurrences of `c`, empty pieces included:
      `n` separators always give `n + 1` pieces, as Rust `str::split(c)` does. */
  function Split(s: string, c: char): (parts: seq<string>)
    ensures |parts| == Count(s, c) + 1
    ensures forall i :: 0 <= i < |parts| ==> c !in parts[i]
  {
    if |s| == 0 then [""]
    else
      var rest := Split(s[1..], c);
      if s[0] == c then [""] + rest
      else [[s[0]] + rest[0]] + rest[1..]
  }

  /** The pieces glued back together with `c` between neighbours. */
  function Join(parts: seq<string>, c: char): string
    requires |parts| > 0
  {
    if |parts| == 1 then parts[0] else parts[0] + [c] + Join(parts[1..], c)
  }

  /** Splitting loses nothing: joining the pieces gives the input back. */
  lemma {:induction false} JoinSplit(s: string, c: char)
    ensures Join(Split(s, c), c) == s
  {
    if |s| > 0 {
      var rest := Split(s[1..], c);
      JoinSplit(s[1..], c);
      if s[0] == c {
        assert ([""] + rest)[1..] == rest;
      } else {
        var parts := [[s[0]] + rest[0]] + rest[1..];
        if |rest| == 1 {
          assert Join(parts, c) == [s[0]] + rest[0];
        } else {
          assert parts[1..] == rest[1..];
          assert Join(rest, c) == rest[0] + [c] + Join(rest[1..], c);
        }
        assert s == [s[0]] + s[1..];
      }
    }
  }

  /** A separator-free prefix sticks to the first piece. */
  lemma {:induction false} SplitPrefix(w: string, t: string, c: char)
    requires c !in w
    ensures Split(w + t, c) == [w + Split(t, c)[0]] + Split(t, c)[1..]
  {
    if |w| > 0 {
      assert (w + t)[0] == w[0];
      assert (w + t)[1..] == w[1..] + t;
      SplitPrefix(w[1..], t, c);
      assert [w[0]] + (w[1..] + Split(t, c)[0]) == w + Split(t, c)[0];
    } else {
      var parts := Split(t, c);
      assert w + t == t;
      assert w + parts[0] == parts[0];
      assert parts == [parts[0]] + parts[1..];
    }
  }

  /** Joining separator-free pieces and splitting again gives the pieces back. */
  lemma {:induction false} SplitJoin(parts: seq<string>, c: char)
    requires |parts| > 0
    requires forall i :: 0 <= i < |parts| ==> c !in parts[i]
    ensures Split(Join(parts, c), c) == parts
  {
    if |parts| == 1 {
      SplitPrefix(parts[0], "", c);
      assert parts[0] + "" == parts[0];
    } else {
      var tail := Join(parts[1..], c);
      SplitJoin(parts[1..], c);
      assert parts[0] + [c] + tail == parts[0] + ([c] + tail);
      SplitPrefix(parts[0], [c] + tail, c);
      assert ([c] + tail)[1..] == tail;
      assert Split([c] + tail, c) == [""] + parts[1..];
      assert parts[0] + "" == parts[0];
      assert parts == [parts[0]] + parts[1..];
    }
  }

  /** Index of the first `c` in `s`, or `|s|` when there is none. */
  function IndexOf(s: string, c: char): (r: nat)
    ensures r <= |s|
  {
    if |s| == 0 || s[0] == c then 0 else 1 + IndexOf(s[1..], c)
  }

  lemma {:induction false} IndexOfAfterPrefix(x: string, y: string, c: char)
    requires c !in x
    ensures IndexOf(x + [c] + y, c) == |x|
  {
    if |x| > 0 {
      assert (x + [c] + y)[0] == x[0];
      assert (x + [c] + y)[1..] == x[1..] + [c] + y;
      assert x[0] in x;
      IndexOfAfterPrefix(x[1..], y, c);
    }
  }

  /** The first occurrence of `c` splits a string in one way only. */
  lemma SplitAtFirst(x: string, y: string, x': string, y': string, c: char)
    requires c !in x && c !in x'
    requires x + [c] + y == x' + [c] + y'
    ensures x == x' && y == y'
  {
    var s := x + [c] + y;
    IndexOfAfterPrefix(x, y, c);
    IndexOfAfterPrefix(x', y', c);
    assert x == s[..|x|] == x';
    assert y == s[|x| + 1..] == y';
  }
}

=== FILE: versioncheck.dfy ===
/** The `versioncheck/v3` endpoint: whether the client build string is one of
    the three supported Early Access builds, reported as a JSON body. */
module VersionCheck {
  const VALID_VERSIONS: seq<string> := ["20171027_EA", "20171103_EA", "20171117_EA"]

  const VALID_BODY: string := "{\"ValidVersion\":true}"
  const INVALID_BODY: string := "{\"ValidVersion\":false}"

  /** `VALID_VERSIONS.iter().any(..)`: the first supported build equal to `v`, scanning from `from`. */
  function AnyFrom(v: string, from: nat): (r: bool)
    requires from <= |VALID_VERSIONS|
    ensures r <==> exists i :: from <= i < |VALID_VERSIONS| && VALID_VERSIONS[i] == v
    decreases |VALID_VERSIONS| - from
  {
    if from == |VALID_VERSIONS| then false
    else VALID_VERSIONS[from] == v || AnyFrom(v, from + 1)
  }

  function BoolText(b: bool): string
  {
    if b then "true" else "false"
  }

  /** The response body. */
  function Check(v: string): (body: string)
    ensures body == VALID_BODY || body == INVALID_BODY
    ensures body == VALID_BODY <==> v in VALID_VERSIONS
  {
    "{\"ValidVersion\":" + BoolText(AnyFrom(v, 0)) + "}"
  }

  /** The two possible bodies differ, so the answer is unambiguous. */
  lemma BodiesDiffer()
    ensures VALID_BODY != INVALID_BODY
  {
    assert VALID_BODY[16] != INVALID_BODY[16];
  }

  /** Exactly the three listed builds are accepted. */
  lemma CheckIff(v: string)
    ensures Check(v) == VALID_BODY <==> v == "20171027_EA" || v == "20171103_EA" || v == "20171117_EA"
  {
  }

  /** Every supported build string has 11 characters, so any longer or shorter
      string (a prefix, a string with trailing blanks) is refused. */
  lemma OnlyElevenCharacters(v: string)
    requires |v| != 11
    ensures Check(v) == INVALID_BODY
  {
    BodiesDiffer();
    assert forall i :: 0 <= i < |VALID_VERSIONS| ==> |VALID_VERSIONS[i]| == 11;
  }

  /** Matching is exact: case differences are refused. */
  lemma CaseMatters()
    ensures Check("20171027_ea") == INVALID_BODY
    ensures Check("20171117_EA") == VALID_BODY
  {
    BodiesDiffer();
    assert "20171027_ea"[10] != "20171027_EA"[10];
    assert "20171027_ea"[10] != "20171103_EA"[10];
    assert "20171027_ea"[10] != "20171117_EA"[10];
  }
}

=== FILE: wrappers.dfy ===
/** Failure-carrying datatypes shared by every module of the model. */
module Wrappers {

  /** A value that may be missing (Rust `Option`). */
  datatype Option<T> = None | Some(value: T)

  /** A value or an error (Rust `Result`). */
  datatype Result<T, E> = Ok(value: T) | Err(error: E)
}

=== FILE: ws_types.dfy ===
/** The presence registry's data: the connection table, the real-time
    command shape and its error codes. */
module WsTypes {
  import opened Wrappers
  import opened Seqs
  import opened Json

  /** One live connection. Its outbound channel is not a field here: sends
      are decided by a delivery oracle in the broadcaster. */
  datatype PlayerData = PlayerData(subbedBy: seq<int>, gameVersion: string)

  /** The connection table, keyed by account id (`PlayerMap`). */
  type Players = map<int, PlayerData>

  /** A fresh table entry: nobody subscribed yet (`PlayerData::new`). */
  function NewPlayerData(gameVersion: string): (r: PlayerData)
    ensures r.gameVersion == gameVersion && |r.subbedBy| == 0
    ensures forall players: Players :: SubscribersOk(players, r.subbedBy)
  {
    PlayerData([], gameVersion)
  }

  /** A subscriber list that only names connected accounts, each once. */
  predicate SubscribersOk(players: Players, subs: seq<int>)
  {
    && (forall i :: 0 <= i < |subs| ==> subs[i] in players)
    && NoDup(subs)
  }

  /** The registry invariant: every subscriber list of the table is good. */
  predicate WellFormed(players: Players)
  {
    forall k :: k in players ==> SubscribersOk(players, players[k].subbedBy)
  }

  /** A frame received from a client. Text is represented by the JSON
      document it parses to (`None` when it is not JSON); binary, ping,
      pong and close frames are all `Other`. */
  datatype Message = Text(json: Option<Value>) | Other

  /** A real-time command: a path and an optional parameter (`ApiRequest`). */
  datatype ApiRequest = ApiRequest(api: string, param: Option<Value>)

  /** Errors of a real-time command (`ApiError`). */
  datatype ApiError = UnknownPath | InvalidParams | NoParams | CallerNotFound

  /** What a command returns, with the table after it. */
  datatype Outcome = Outcome(result: Result<(), ApiError>, players: Players)

  /** serde reading of an `ApiRequest`: an object with a string member `api`;
      a missing or `null` member `param` reads as no parameter. Other
      members are ignored. */
  function DecodeApiRequest(v: Value): (r: Option<ApiRequest>)
    ensures r.Some? <==> Member(v, "api").Some? && Member(v, "api").value.Str?
    ensures r.Some? ==> Member(v, "api") == Some(Str(r.value.api))
    ensures r.Some? ==> r.value.param != Some(Null)
    ensures r.Some? ==> (r.value.param.None? <==> Member(v, "param").None? || Member(v, "param") == Some(Null))
    ensures r.Some? && r.value.param.Some? ==> Member(v, "param") == r.value.param
  {
    match Member(v, "api")
    case Some(Str(api)) =>
      var param := Member(v, "param");
      Some(ApiRequest(api, if param == Some(Null) then None else param))
    case _ => None
  }

  /** The JSON object a client sends for a command. */
  function EncodeApiRequest(req: ApiRequest): Value
  {
    Object(map["api" := Str(req.api)] + (if req.param.Some? then map["param" := req.param.value] else map[]))
  }

  /** Every command whose parameter is not `null` reads back as itself; a
      `null` parameter reads back as no parameter. */
  lemma DecodeEncodeApiRequest(req: ApiRequest)
    ensures req.param != Some(Null) ==> DecodeApiRequest(EncodeApiRequest(req)) == Some(req)
    ensures req.param == Some(Null) ==> DecodeApiRequest(EncodeApiRequest(req)) == Some(ApiRequest(req.api, None))
  {
    var v := EncodeApiRequest(req);
    assert Member(v, "api") == Some(Str(req.api));
    if req.param.Some? {
      assert Member(v, "param") == req.param;
    } else {
      assert "param" !in v.members;
    }
  }
}
